=== FILE: README.md ===
# fuzzybear in Dafny

A Dafny model of fuzzybear, a JavaScript library for fuzzy search. It ranks a list
of strings, or of objects with a string `value`, against a search term. Each candidate
gets a weighted mean of `1 - distance` over one or more distance methods. The library
ships two methods:

- a Jaro-Winkler distance (`methods/jaro-winkler.js`);
- an n-gram distance it calls Jaccard (`methods/jaccard.js`).

A caller may also pass a distance function of their own.

## Modules

- **Common**: `Option`, `Result` (with `:-` propagation), `Min`/`Max`.
- **Text**: lower/upper-casing of ASCII letters. This stands in for `toLowerCase`.
- **Jaccard**: the n-gram distance.
  - `Distance` is the functional definition.
  - `GramOccurrences` and `MatchingNgramCount` are the two loops of `matchingNgramCount`, run on a model of the JavaScript `Map`.
  - Each loop is proved to compute the functional count.
- **JaroWinkler**: the functional model of the match pass, transpositions, Jaro weight and prefix bonus.
  - The match pass is a fold of `Step` over the rows of `a`.
  - Its invariant `Matched` says that each position is marked at most once and that every mark has a partner holding the same character inside the window. It also says the match count equals the number of marks on either side.
- **JaroWinklerScan**: the source's loops as methods, each proved equal to the functional model. The match scan writes into boolean mark arrays. The transposition scan reads the finished marks as sequences.
  - `MatchScan` is the match pass.
  - `TranspositionScan` is the transposition pass.
  - `DistanceScan` is the whole distance, including the prefix loop.
- **Options**: the option handling of `search` and `score`.
  - `optionsDefaults` with method shorthand normalisation.
  - `validateOptions`.
  - `loadMethods`, modelled as a lookup in a closed registry of the two built-in methods.
- **Scoring**: `score`, the weighted mean over the loaded methods, on case-folded strings unless the search is case-sensitive.
- **Records**: elements, their searchable value, the records they stand for, and the output objects with `_score`.
- **Ranking**: the result order. `Array.prototype.sort` with the comparator `right._score - left._score` is modelled as a stable descending insertion sort, followed by `slice(0, results)`.
- **Fuzzybear**: `search` and `score` as the library exports them.

Numbers are `real`. Every operation in the core is `+`, `-`, `*`, `/` or a floor of a
non-negative quotient, so the model computes exactly what the source's formulas define.

### Where the model follows the code over its documentation

- **The n-gram count is never decremented.** `matchingNgramCount` means to decrement a gram's count on each hit. It calls `m.set(c - 1)`, which stores `undefined` under the number key `c - 1` and leaves the gram's count alone (methods/jaccard.js:46). The model does the same: map keys are `GramKey(gram)` or `NumberKey(n)`, and the second loop writes `NumberKey(c - 1)`.
  - So `g` is the number of gram positions of `b` whose gram occurs anywhere in `a`.
  - It can exceed `G - g`, and the distance can be negative, against the "between 0 and 1" of the doc comment. `Jaccard.NegativeDistance` proves that `("aaa", "aaaa")` with bigrams is at distance −1/2.
  - The rest of the model uses the code's behaviour. For that reason the default score has a proved lower bound of 0 but no upper bound of 1.
- **Elements are read through `value`.** Some tests speak of a `label` property, a `labelField` option and an "Element without label" message. The code reads `element.value`, writes `_score` and throws "Element without value is not searchable", and the model does the same.
- **The transposition scan stays inside `b`.** The inner loop (methods/jaro-winkler.js:60-65) is modelled as `while !bMatch[j]`, entered only after a proof that a marked position lies ahead. Both strings hold the same number of marks, so the source's read of `b[j]` after the loop never falls past the end of `b`.

## Model

| member | source | states |
|---|---|---|
| Text.Lower | fuzzybear.js:84-85 | lower-casing keeps the length, leaves no upper-case letter, changes no other character, and moves each upper-case letter down by 32 |
| Text.LowerOfCaseVariants | fuzzybear.js:84-85 | lower-casing the upper-cased string gives the lower-cased string, so case variants fold together |
| Jaccard.Grams | methods/jaccard.js:40-41 | a string has max(len - n + 1, 0) grams, and gram i is the n characters starting at i |
| Jaccard.CountOccurringExtremes | methods/jaccard.js:44-47 | the hit count is 0 exactly when no gram of `b` occurs in `a`, and equals the number of grams of `b` exactly when all of them do |
| Jaccard.MatchCount | methods/jaccard.js:32-34 | g never exceeds gb, and is 0 when `a` has no grams |
| Jaccard.GramOccurrences | methods/jaccard.js:39-43 | after the first loop every key is a gram, and looking up a gram gives its number of occurrences in `a` (0 when absent, as `m.get(g) \|\| 0`) |
| Jaccard.MatchingNgramCount | methods/jaccard.js:38-50 | the loop on the map, including the stray `m.set(c - 1)`, returns the number of gram positions of `b` whose gram occurs in `a` |
| Jaccard.GramDistance | methods/jaccard.js:35 | with g at most gb, the result never exceeds 1, and with no hits it is 1 (also when there are no grams) |
| Jaccard.Distance | methods/jaccard.js:21-36 | an empty string gives 1, equal non-empty strings give 0, and no result exceeds 1 |
| Jaccard.DenominatorPositive | methods/jaccard.js:32-35 | whenever G > 0, G - g is at least ga and positive, so the division is defined |
| Jaccard.NoSharedGramIsMaximal | methods/jaccard.js:35 | when no gram of `b` occurs in `a`, the distance is 1 unless the strings are equal (and then non-empty) |
| Jaccard.NoCommonCharacterIsMaximal | methods/jaccard.js:38-47 | strings with no character in common share no gram of length at least 1 and are at distance 1 |
| Jaccard.ShorterThanGramIsMaximal | methods/jaccard.js:32-35 | two different strings both shorter than n have no grams and are at distance 1 |
| Jaccard.NegativeDistance | methods/jaccard.js:19-35 | "aaa" against "aaaa" with n = 2 gives -1/2, outside the documented range |
| JaroWinkler.EmptyWindow | methods/jaro-winkler.js:39-45 | for strings of length at most 1 the range is -1 and every window is empty |
| JaroWinkler.WindowBounds | methods/jaro-winkler.js:43-44 | every window position lies inside `b` and at most `range` from the row |
| JaroWinkler.FirstFree | methods/jaro-winkler.js:45-51 | the window scan returns an unmarked position holding the row's character, and no earlier window position qualifies |
| JaroWinkler.Step | methods/jaro-winkler.js:42-52 | one row keeps the match invariant: each position is marked at most once, each mark is paired with an equal character inside the window, and the count equals the marks on either side |
| JaroWinkler.MarkKeepsMatched | methods/jaro-winkler.js:46-48 | marking a row against a free equal character in its window keeps that invariant, with one more pair |
| JaroWinkler.MatchPass | methods/jaro-winkler.js:37-52 | after all rows the invariant holds and m <= min(\|a\|, \|b\|) |
| JaroWinkler.StepMaximal | methods/jaro-winkler.js:45-51 | after a row, every equal character inside that row's window is marked on one side or the other, and earlier rows stay that way |
| JaroWinkler.MatchRowsMaximal | methods/jaro-winkler.js:42-52 | the remaining rows keep every processed row saturated, so no equal pair inside a window is left unmarked on both sides |
| JaroWinkler.MatchPassMaximal | methods/jaro-winkler.js:37-52 | after the pass, no character of `a` and equal character of `b` inside its window are both unmarked: the greedy scan is maximal |
| JaroWinkler.MatchesIffSharedInWindow | methods/jaro-winkler.js:42-54 | the pass makes at least one match if and only if some character of `a` has an equal character of `b` inside its window |
| JaroWinkler.Mismatches | methods/jaro-winkler.js:66 | the number of differing positions is at most the length, and 0 exactly when the sequences are equal |
| JaroWinkler.Transpositions | methods/jaro-winkler.js:57-68 | pairing the i-th marked characters of `a` and `b` gives at most m mismatches |
| JaroWinkler.JaroWeight | methods/jaro-winkler.js:69 | for 0 < m and t <= m the weight lies in (0, 1], and equals 1 exactly when all characters of both strings match with no transposition |
| JaroWinkler.PrefixFrom | methods/jaro-winkler.js:72 | the prefix loop stops at most at 4, both strings agree before the stop, and below 4 they disagree at the stop |
| JaroWinkler.PrefixIsCommon | methods/jaro-winkler.js:70-72 | for different strings the prefix length is at most 4, within both strings, and a common prefix |
| JaroWinkler.BonusBounds | methods/jaro-winkler.js:70-74 | a weight of at most 0.7 gets no bonus; for p in [0, 1/4] the bonus never lowers the weight or lifts it past 1; below 1/4 a weight under 1 stays under 1 |
| JaroWinkler.Distance | methods/jaro-winkler.js:26-76 | an empty string gives 1, equal non-empty strings give 0, and for p in [0, 1/4] the distance lies in [0, 1] |
| JaroWinkler.ZeroExactlyForEqual | methods/jaro-winkler.js:32-75 | for non-empty strings and p in [0, 1/4), the distance is 0 if and only if the strings are equal |
| JaroWinkler.NoCommonCharacterIsMaximal | methods/jaro-winkler.js:54 | strings with no character in common make no match and are at distance 1 |
| JaroWinkler.SharedInWindowIsBelowOne | methods/jaro-winkler.js:32-75 | for different strings and p in [0, 1/4], the distance is below 1 if and only if some character of `a` has an equal character of `b` inside its window |
| JaroWinklerScan.ScanWindow | methods/jaro-winkler.js:45-51 | the inner loop on the mark array finds the window position the functional scan defines |
| JaroWinklerScan.MarkRow | methods/jaro-winkler.js:43-51 | one row on the arrays leaves exactly the marks of the functional step, and reports a hit exactly when the count grows |
| JaroWinklerScan.MatchScan | methods/jaro-winkler.js:37-52 | the loops on the arrays produce the marks and count of the match pass; m counts the marks on either side and is at most min(\|a\|, \|b\|) |
| JaroWinklerScan.NextMark | methods/jaro-winkler.js:60-65 | from k, the next marked position j of `b` exists with k <= j < \|b\|, so `k = j + 1` strictly grows and `b[j]` is in bounds |
| JaroWinklerScan.TranspositionStep | methods/jaro-winkler.js:58-66 | one row of the scan: a marked `a[i]` moves `k` strictly forward, past a marked position of `b` and never beyond its end, counting one transposition when the characters differ; an unmarked row changes nothing |
| JaroWinklerScan.TranspositionScan | methods/jaro-winkler.js:56-68 | the two-pointer scan counts exactly the mismatches of the paired marked characters, at most m |
| JaroWinklerScan.DistanceScan | methods/jaro-winkler.js:26-76 | the whole imperative distance equals the functional one and lies in [0, 1] for p in [0, 1/4] |
| Options.Normalize | fuzzybear.js:115-133 | a name becomes a method with weight 1; a function becomes a method with weight 1; an object keeps its fields and gets weight 1 only when it has none; anything else fails with "Invalid method definition" |
| Options.NormalizeAll | fuzzybear.js:115-133 | normalising the list succeeds exactly when no entry is malformed, and then normalises each entry |
| Options.OptionsDefaults | fuzzybear.js:96-136 | every option the caller supplies overrides its default (0 results, no score floor, case-insensitive, the two default methods); the settings hold the supplied (or default) method entries, each normalised |
| Options.ValidateOptions | fuzzybear.js:138-142 | fails with "No search methods specified." exactly when there is no method |
| Options.Registry | fuzzybear.js:149 | "jaro-winkler" loads the Jaro-Winkler distance and "jaccard" the n-gram distance; any other name fails with a not-found error naming it |
| Options.LoadMethod | fuzzybear.js:147-149 | a method with its own function keeps it; otherwise the method gets the registry's algorithm for its name, or the registry's not-found error; weight and params are kept |
| Options.LoadMethods | fuzzybear.js:144-151 | loading the list succeeds exactly when every method loads, and keeps their order |
| Options.Prepare | fuzzybear.js:27-29 | a malformed entry fails before an empty list, which fails before loading; past those checks it succeeds exactly when every method loads, and otherwise reports the loading error; the configuration holds the defaulted `results`, `minScore` and `caseSensitive` and the loaded methods, with the weights the entries gave them |
| Options.PrepareDefaults | fuzzybear.js:97-113 | with no options: all results, no floor, case-insensitive, Jaro-Winkler with p 0.1 and weight 1.5, and n-gram with n 2 and weight 1 |
| Scoring.Apply | fuzzybear.js:89 | each built-in runs its own distance, with `p` defaulting to 0.1 and `n` to 2 when the params leave them out; the built-ins give 1 for an empty string and 0 for equal non-empty strings; the n-gram distance is at most 1; Jaro-Winkler stays in [0, 1] for p in [0, 1/4]; a custom function is called with the params |
| Scoring.Fold | fuzzybear.js:84-85 | case-sensitive searches see the strings unchanged, and folding keeps the length |
| Scoring.Score | fuzzybear.js:87-93 | the weighted mean of `1 - distance` over the methods, on the folded strings; it is defined as that formula, and its properties are the lemmas ScoreOfOneMethod, ScoreOfUniformDistance, ScoreOfConcatenation, ScoreInUnitInterval and ScoreFoldsCase |
| Scoring.ScoreOfOneMethod | fuzzybear.js:87-93 | with one method the score is exactly one minus that method's distance, whatever its non-zero weight |
| Scoring.ScoreOfUniformDistance | fuzzybear.js:87-93 | when every method reports distance c the score is 1 - c, whatever the weights |
| Scoring.ScoreInUnitInterval | fuzzybear.js:87-93 | non-negative weights and distances in [0, 1] give a score in [0, 1] |
| Scoring.TotalWeightAppend | fuzzybear.js:87-91 | the total weight of two method lists run one after the other is the sum of their totals |
| Scoring.SimilarityOfConcatenation | fuzzybear.js:87-91 | the weighted similarity accumulated over two method lists is the sum of what each list accumulates |
| Scoring.ScoreOfConcatenation | fuzzybear.js:87-93 | the score over two method lists is the mean of the two lists' own scores, weighted by their total weights |
| Scoring.DefaultScoreIsWeightedMean | fuzzybear.js:87-113 | with the default methods the score is (1.5 (1 - Jaro-Winkler distance with p 0.1) + (1 - bigram distance)) / 2.5 on the folded strings |
| Scoring.ScoreFoldsCase | fuzzybear.js:84-85 | a case-insensitive score is the score of the lower-cased strings |
| Scoring.ScoreIgnoresCase | fuzzybear.js:84-85 | a case-insensitive score does not change when the query, or both strings, are upper-cased |
| Scoring.DefaultIdenticalScoresOne | fuzzybear.js:87-93 | with the default methods, strings equal after folding and non-empty score 1 |
| Scoring.DefaultEmptyScoresZero | fuzzybear.js:87-93 | with the default methods, an empty query or an empty candidate scores 0 |
| Scoring.DefaultDisjointScoresZero | fuzzybear.js:87-93 | with the default methods, strings with no character in common score 0 |
| Scoring.DefaultScoreNonNegative | fuzzybear.js:87-93 | with the default methods no score is negative; the total weight is 2.5 |
| Records.ValueOf | fuzzybear.js:33-40 | a bare string is searchable as itself, an object exactly when its `value` is a string, and nothing else is searchable |
| Records.RecordOf | fuzzybear.js:42-47 | a bare string becomes an object with only `value`, an object stays itself, and either way `value` holds the searchable string |
| Records.Output | fuzzybear.js:51 | the output object has the record's properties plus `_score`, with `_score` set to the score and every other property unchanged |
| Ranking.Insert | fuzzybear.js:55 | inserting into a best-first list keeps it best first and adds exactly the one hit |
| Ranking.Sort | fuzzybear.js:55 | the sort yields a best-first permutation of its input |
| Ranking.SortIsStable | fuzzybear.js:55 | hits with equal scores keep their input order |
| Ranking.PrefixKeepsBest | fuzzybear.js:57-58 | no hit outside a prefix of a best-first list outscores one inside it |
| Ranking.Truncate | fuzzybear.js:57-58 | with a positive limit below the length the result is the first `results` hits, otherwise all of them |
| Ranking.Rank | fuzzybear.js:54-58 | the ranked list is the first min(results, n) hits of the stable sort (all when results <= 0): best first, a sub-multiset of the input (a permutation when results <= 0), and none dropped outscores a kept one |
| Fuzzybear.Kept | fuzzybear.js:49-51 | the filter keeps exactly the hits that reach the floor, and all of them when there is none |
| Fuzzybear.Collect | fuzzybear.js:32-52 | collection succeeds exactly when every element is searchable; the result is the element hits that reach the floor, in element order, each once per element |
| Fuzzybear.Search | fuzzybear.js:26-61 | option errors come first; otherwise an unsearchable element fails the whole search; a result is the first min(results, kept) entries (all when results <= 0) of the stable best-first sort of the kept hits, so it reaches the floor, comes from the elements, and keeps ties in element order |
| Fuzzybear.SearchRecords | fuzzybear.js:49-60 | the returned objects are the search hits' output objects in order, each an element's record with only `_score` set, and the `_score` values never increase; search errors are passed through |
| Fuzzybear.ScoreStrings | fuzzybear.js:77-94 | `score` fails with the same option errors as `search`, and otherwise gives the score `search` assigns to an element with that value |
| Fuzzybear.SearchWithoutMethods | fuzzybear.js:138-142 | an empty method list fails with "No search methods specified." whatever the elements |
| Fuzzybear.SearchWithInvalidMethod | fuzzybear.js:128-129 | a malformed method entry fails with "Invalid method definition" whatever the elements |
| Fuzzybear.SearchWithUnknownMethod | fuzzybear.js:149 | a method name outside the registry fails to load |
| Fuzzybear.SearchWithConstantFunction | fuzzybear.js:87-93 | one custom function that always answers c scores every element 1 - c and keeps them all |
| Fuzzybear.SearchDefaultKeepsAll | fuzzybear.js:97-113 | with no options every element comes back, as a permutation of the element hits |
| Fuzzybear.SearchEmptyTermScoresZero | fuzzybear.js:87-93 | with no options an empty search term scores every element 0 |
| Fuzzybear.SearchCaseVariants | fuzzybear.js:84-85 | a case-insensitive search gives the same answer for any two search terms with the same lower-case form |
| Fuzzybear.SearchIgnoresCase | fuzzybear.js:84-85 | a case-insensitive search gives the same answer for the upper-cased search term |

## Left out

- Module wiring (fuzzybear.js:153-156) is not modelled. This includes the `export default` of methods/jaccard.js:21 read as `.distance`, and tests that import a `jaro_winkler.js` file. The registry holds the two methods by name.
- Dynamic `require` of a method file becomes the closed `Registry`. Any other name is the error `MethodNotFound`; the JavaScript error text comes from the module loader.
- IEEE-754 behaviour is not modelled: numbers are exact reals. Rounded expectations such as 0.64 or `Math.round` of a score are not modelled. The default floor `-Number.MAX_VALUE` becomes "no floor" (`None`).
- Scoring.Score: requires a non-zero total weight, because the source then divides by zero. If the weighted sum is also 0, as with all weights 0, the score is NaN. NaN fails `>= minScore`, so such a search returns `[]`. Weights like `[1, -1]` give a non-zero sum over a zero total, so the score is +Infinity or -Infinity, and +Infinity passes any floor. None of these cases is modelled.
- Fuzzybear.Search: requires a non-zero total weight (`WeightsUsable`), for the same reason. Option errors are still reported without it.
- `toLowerCase` is modelled as ASCII case folding over `seq<char>`. Unicode case mapping and UTF-16 code units are not modelled.
- Jaccard.Distance: `n` is an integer. A fractional `n` passed to `substr` is not modelled.
- Caller objects are not mutated in the model, while the source adds `weight` and `function` to the caller's method objects in place (fuzzybear.js:127, 149).
- In the source, `null` elements or method entries pass `typeof … === 'object'` and then throw a TypeError. The model reports them as unsearchable elements or malformed entries.
- Arrays as elements are treated like any other object without a string `value`.
- Property values other than strings and numbers are opaque (`JsOther`).
- The `label`/`labelField` behaviour some tests expect is not in the code and is not modelled.
- The numeric ranking fixtures over long texts in the tests are concrete values, not properties, and are not modelled.
- Fuzzybear.ScoreStrings: models `score` with its fourth parameter `_skipOptionsPrep` left at `false` (fuzzybear.js:77-82). The `true` path, which `search` uses internally, is covered by `HitOf` inside `Search`.
- `results` is an integer. A fractional limit, which `slice(0, results)` truncates toward zero, is not modelled.

=== FILE: common.dfy ===
/** Failure-compatible wrappers shared by every module of the model. */
module Common {

  /** A value that may be absent: JavaScript's `undefined` for an unset option or field. */
  datatype Option<+T> = None | Some(value: T) {

    /** The carried value, or `default` when absent (the source's `x === undefined ? d : x`). */
    function GetOr(default: T): T {
      match this
      case Some(v) => v
      case None => default
    }
  }

  /** Either a value or the error the source would throw. */
  datatype Result<+T, +E> = Ok(value: T) | Err(error: E) {

    predicate IsFailure() {
      Err?
    }

    function PropagateFailure<U>(): Result<U, E>
      requires Err?
    {
      Err(error)
    }

    function Extract(): T
      requires Ok?
    {
      value
    }
  }

  function Min(x: int, y: int): int {
    if x <= y then x else y
  }

  function Max(x: int, y: int): int {
    if x >= y then x else y
  }
}

=== FILE: fuzzybear.dfy ===
/**
 * `search` and `score` of fuzzybear.js: prepare the options, score every element's
 * value against the search term, keep the scores that reach `minScore`, sort them
 * best first and cut the list to `results` entries.
 */
module Fuzzybear {
  import opened Common
  import opened Options
  import opened Records
  import Text
  import Scoring
  import Ranking

  /**
   * Options whose methods, once loaded, have a non-zero total weight; with a zero total
   * the source divides by zero and every score is NaN.
   */
  predicate WeightsUsable(opts: UserOptions) {
    Prepare(opts).Ok? ==> Scoring.TotalWeight(Prepare(opts).value.methods) != 0.0
  }

  /** `searchScore >= options.minScore`; with no floor every score passes. */
  predicate Passes(score: real, minScore: Option<real>) {
    minScore.None? || score >= minScore.value
  }

  /** Every element has a searchable string. */
  predicate Searchable(es: seq<Element>) {
    forall i :: 0 <= i < |es| ==> ValueOf(es[i]).Some?
  }

  /** The hit an element yields: its record and the score of its value against the term. */
  function HitOf(q: string, e: Element, cfg: Config): Hit
    requires ValueOf(e).Some? && Scoring.TotalWeight(cfg.methods) != 0.0
  {
    Hit(RecordOf(e), Scoring.Score(q, ValueOf(e).value, cfg.caseSensitive, cfg.methods))
  }

  /** The hit of every element, in order. */
  function AllHits(q: string, es: seq<Element>, cfg: Config): (hs: seq<Hit>)
    requires Searchable(es) && Scoring.TotalWeight(cfg.methods) != 0.0
    ensures |hs| == |es|
    ensures forall i :: 0 <= i < |es| ==> hs[i] == HitOf(q, es[i], cfg)
  {
    seq(|es|, i requires 0 <= i < |es| => HitOf(q, es[i], cfg))
  }

  /** The hits whose score reaches the floor, in their order. */
  function Kept(hs: seq<Hit>, minScore: Option<real>): (r: seq<Hit>)
    ensures |r| <= |hs|
    ensures forall h :: h in r <==> h in hs && Passes(h.score, minScore)
    ensures minScore.None? ==> r == hs
  {
    if hs == [] then []
    else (if Passes(hs[0].score, minScore) then [hs[0]] else []) + Kept(hs[1..], minScore)
  }

  /**
   * The `forEach` over the elements: an element without a string value aborts the
   * search; otherwise the hits that pass `minScore` are kept in element order.
   */
  function Collect(q: string, es: seq<Element>, cfg: Config): (r: Result<seq<Hit>, Error>)
    requires Scoring.TotalWeight(cfg.methods) != 0.0
    ensures r.Ok? <==> Searchable(es)
    ensures r.Err? ==> r.error == ElementWithoutValue && Message(r.error) == "Element without value is not searchable"
    ensures r.Ok? ==> |r.value| <= |es|
    ensures r.Ok? ==> forall h :: h in r.value <==> h in AllHits(q, es, cfg) && Passes(h.score, cfg.minScore)
    ensures r.Ok? && cfg.minScore.None? ==> r.value == AllHits(q, es, cfg)
    ensures r.Ok? ==> r.value == Kept(AllHits(q, es, cfg), cfg.minScore)
  {
    if es == [] then Ok([])
    else if ValueOf(es[0]).None? then Err(ElementWithoutValue)
    else
      var h := HitOf(q, es[0], cfg);
      var rest :- Collect(q, es[1..], cfg);
      KeptStep(q, es, cfg);
      Ok((if Passes(h.score, cfg.minScore) then [h] else []) + rest)
  }

  /** Keeping the hits of a searchable list is keeping its first hit or not, then the rest's. */
  lemma KeptStep(q: string, es: seq<Element>, cfg: Config)
    requires es != [] && ValueOf(es[0]).Some? && Scoring.TotalWeight(cfg.methods) != 0.0
    requires Searchable(es[1..])
    ensures Searchable(es)
    ensures Kept(AllHits(q, es, cfg), cfg.minScore) ==
      (if Passes(HitOf(q, es[0], cfg).score, cfg.minScore) then [HitOf(q, es[0], cfg)] else [])
      + Kept(AllHits(q, es[1..], cfg), cfg.minScore)
  {
    assert forall i :: 1 <= i < |es| ==> es[i] == es[1..][i - 1];
    assert AllHits(q, es, cfg)[1..] == AllHits(q, es[1..], cfg);
  }

  /** `search(searchTerm, elements, options)`. */
  function Search(q: string, es: seq<Element>, opts: UserOptions): (r: Result<seq<Hit>, Error>)
    requires WeightsUsable(opts)
    ensures Prepare(opts).Err? ==> r == Err(Prepare(opts).error)
    ensures Prepare(opts).Ok? ==> (r.Ok? <==> Searchable(es))
    ensures Prepare(opts).Ok? && !Searchable(es) ==> r == Err(ElementWithoutValue)
    ensures r.Ok? ==> Ranking.Descending(r.value)
    ensures r.Ok? ==> var cfg := Prepare(opts).value;
      forall h :: h in r.value ==> h in AllHits(q, es, cfg) && Passes(h.score, cfg.minScore)
    ensures r.Ok? ==> var cfg := Prepare(opts).value; var kept := Collect(q, es, cfg).value;
      && |r.value| == (if cfg.results > 0 then Min(cfg.results, |kept|) else |kept|)
      && (cfg.results <= 0 ==> multiset(r.value) == multiset(kept))
      && forall h, x :: h in kept && h !in r.value && x in r.value ==> x.score >= h.score
    ensures r.Ok? ==> var cfg := Prepare(opts).value;
      r.value == Ranking.Sort(Kept(AllHits(q, es, cfg), cfg.minScore))[..|r.value|]
  {
    var cfg :- Prepare(opts);
    var kept :- Collect(q, es, cfg);
    Ok(Ranking.Rank(kept, cfg.results))
  }

  /**
   * The objects `search` returns: each kept record with `_score` set, best first. A
   * record that already had a `_score` has it replaced.
   */
  function SearchRecords(q: string, es: seq<Element>, opts: UserOptions): (r: Result<seq<Fields>, Error>)
    requires WeightsUsable(opts)
    ensures Search(q, es, opts).Err? ==> r == Err(Search(q, es, opts).error)
    ensures Search(q, es, opts).Ok? ==> r == Ok(Outputs(Search(q, es, opts).value))
    ensures r.Ok? ==> forall i :: 0 <= i < |r.value| ==>
      ScoreField in r.value[i] && r.value[i][ScoreField] == JsNumber(Search(q, es, opts).value[i].score)
    ensures r.Ok? ==> forall i, j :: 0 <= i < j < |r.value| ==>
      r.value[i][ScoreField].num >= r.value[j][ScoreField].num
    ensures r.Ok? ==> forall i :: 0 <= i < |r.value| ==>
      exists k :: 0 <= k < |es| && ValueOf(es[k]).Some? && r.value[i] == RecordOf(es[k])[ScoreField := r.value[i][ScoreField]]
  {
    var hits :- Search(q, es, opts);
    OutputsAreRecords(q, es, Prepare(opts).value, hits);
    OutputsScored(hits);
    Ok(Outputs(hits))
  }

  /** The output object of every hit, in order. */
  function Outputs(hits: seq<Hit>): (out: seq<Fields>)
    ensures |out| == |hits|
    ensures forall i :: 0 <= i < |hits| ==> out[i] == Output(hits[i])
  {
    seq(|hits|, i requires 0 <= i < |hits| => Output(hits[i]))
  }

  /** Every output carries its hit's score as `_score`, so a best-first list gives non-increasing `_score`s. */
  lemma OutputsScored(hits: seq<Hit>)
    requires Ranking.Descending(hits)
    ensures forall i :: 0 <= i < |hits| ==>
      ScoreField in Outputs(hits)[i] && Outputs(hits)[i][ScoreField] == JsNumber(hits[i].score)
    ensures forall i, j :: 0 <= i < j < |hits| ==>
      Outputs(hits)[i][ScoreField].num >= Outputs(hits)[j][ScoreField].num
  {
  }

  /** `o` is the record of one of the searchable elements, with `_score` set. */
  predicate IsElementOutput(es: seq<Element>, o: Fields) {
    ScoreField in o &&
    exists k :: 0 <= k < |es| && ValueOf(es[k]).Some? && o == RecordOf(es[k])[ScoreField := o[ScoreField]]
  }

  /** Hits drawn from the elements' hits give outputs that are element records with `_score` set. */
  lemma OutputsAreRecords(q: string, es: seq<Element>, cfg: Config, hits: seq<Hit>)
    requires Searchable(es) && Scoring.TotalWeight(cfg.methods) != 0.0
    requires forall h :: h in hits ==> h in AllHits(q, es, cfg)
    ensures forall i :: 0 <= i < |hits| ==> IsElementOutput(es, Output(hits[i]))
  {
    forall i | 0 <= i < |hits|
      ensures IsElementOutput(es, Output(hits[i]))
    {
      var all := AllHits(q, es, cfg);
      assert hits[i] in hits;
      var k :| 0 <= k < |all| && all[k] == hits[i];
      assert hits[i].fields == RecordOf(es[k]);
    }
  }

  /** `score(searchTerm, testString, options)`: the same preparation, then one score. */
  function ScoreStrings(q: string, t: string, opts: UserOptions): (r: Result<real, Error>)
    requires WeightsUsable(opts)
    ensures Prepare(opts).Err? ==> r == Err(Prepare(opts).error)
    ensures Prepare(opts).Ok? ==> r.Ok?
    ensures r.Ok? ==> forall e :: ValueOf(e) == Some(t) ==>
      HitOf(q, e, Prepare(opts).value).score == r.value
  {
    var cfg :- Prepare(opts);
    Ok(Scoring.Score(q, t, cfg.caseSensitive, cfg.methods))
  }

  /** An empty method list is rejected before any element is looked at. */
  lemma SearchWithoutMethods(q: string, es: seq<Element>, opts: UserOptions)
    requires opts.methods == Some([])
    ensures WeightsUsable(opts)
    ensures Search(q, es, opts) == Err(NoSearchMethods)
    ensures Message(Search(q, es, opts).error) == "No search methods specified."
  {
  }

  /** A malformed method entry is rejected before any element is looked at. */
  lemma SearchWithInvalidMethod(q: string, es: seq<Element>, opts: UserOptions, k: nat)
    requires opts.methods.Some? && k < |opts.methods.value| && opts.methods.value[k].OtherEntry?
    ensures WeightsUsable(opts)
    ensures Search(q, es, opts) == Err(InvalidMethodDefinition)
    ensures Message(Search(q, es, opts).error) == "Invalid method definition"
  {
  }

  /** A method named by neither built-in file cannot be loaded. */
  lemma SearchWithUnknownMethod(q: string, es: seq<Element>, opts: UserOptions, name: string)
    requires opts.methods == Some([NameEntry(name)])
    requires name != "jaro-winkler" && name != "jaccard"
    ensures WeightsUsable(opts)
    ensures Search(q, es, opts) == Err(MethodNotFound(Some(name)))
  {
    var settings := OptionsDefaults(opts);
    assert settings.Ok? && settings.value.methods == [Method(Some(name), None, 1.0, NoParams)];
    assert LoadMethod(settings.value.methods[0]).Err?;
  }

  /** The options with a single caller-supplied distance function. */
  function CustomOptions(fn: DistanceFn): UserOptions {
    UserOptions(None, None, None, Some([FunctionEntry(fn)]))
  }

  lemma PrepareCustom(fn: DistanceFn)
    ensures Prepare(CustomOptions(fn)) == Ok(Config(0, None, false, [Loaded(CustomAlgorithm(fn), 1.0, NoParams)]))
  {
    var settings := OptionsDefaults(CustomOptions(fn));
    assert settings.Ok? && settings.value.methods == [Method(None, Some(fn), 1.0, NoParams)];
    var loaded := LoadMethods(settings.value.methods);
    assert loaded.Ok? && |loaded.value| == 1;
    assert LoadMethod(settings.value.methods[0]) == Ok(loaded.value[0]);
    assert loaded.value == [Loaded(CustomAlgorithm(fn), 1.0, NoParams)];
    assert ValidateOptions(settings.value) == Ok(settings.value);
  }

  /**
   * A single distance function that always answers `c` scores every element `1 - c`,
   * and with no floor and no limit every element comes back.
   */
  lemma SearchWithConstantFunction(q: string, es: seq<Element>, fn: DistanceFn, c: real)
    requires forall a, b, p :: fn(a, b, p) == c
    requires Searchable(es)
    ensures WeightsUsable(CustomOptions(fn))
    ensures Search(q, es, CustomOptions(fn)).Ok?
    ensures |Search(q, es, CustomOptions(fn)).value| == |es|
    ensures forall h :: h in Search(q, es, CustomOptions(fn)).value ==> h.score == 1.0 - c
  {
    PrepareCustom(fn);
    var cfg := Prepare(CustomOptions(fn)).value;
    assert Scoring.TotalWeight(cfg.methods) == 1.0;
    forall i | 0 <= i < |es|
      ensures HitOf(q, es[i], cfg).score == 1.0 - c
    {
      Scoring.ScoreOfUniformDistance(q, ValueOf(es[i]).value, false, cfg.methods, c);
    }
  }

  lemma DefaultConfig()
    ensures Prepare(NoOptions) == Ok(Config(0, None, false, DefaultLoaded))
    ensures Scoring.TotalWeight(DefaultLoaded) == 2.5
  {
    PrepareDefaults();
    Scoring.DefaultTotalWeight();
  }

  /** With no options, every element comes back, best first. */
  lemma SearchDefaultKeepsAll(q: string, es: seq<Element>)
    requires Searchable(es)
    ensures WeightsUsable(NoOptions)
    ensures Search(q, es, NoOptions).Ok?
    ensures multiset(Search(q, es, NoOptions).value) == multiset(AllHits(q, es, Prepare(NoOptions).value))
    ensures |Search(q, es, NoOptions).value| == |es|
  {
    DefaultConfig();
  }

  /** With no options, an empty search term scores every element 0. */
  lemma SearchEmptyTermScoresZero(es: seq<Element>)
    requires Searchable(es)
    ensures WeightsUsable(NoOptions)
    ensures Search("", es, NoOptions).Ok?
    ensures forall h :: h in Search("", es, NoOptions).value ==> h.score == 0.0
  {
    DefaultConfig();
    var cfg := Prepare(NoOptions).value;
    forall i | 0 <= i < |es|
      ensures HitOf("", es[i], cfg).score == 0.0
    {
      Scoring.DefaultEmptyScoresZero("", ValueOf(es[i]).value, false);
    }
  }

  /** Collection depends on the search term only through the hits it yields. */
  lemma {:induction false} CollectFollowsHits(q1: string, q2: string, es: seq<Element>, cfg: Config)
    requires Scoring.TotalWeight(cfg.methods) != 0.0
    requires forall i :: 0 <= i < |es| && ValueOf(es[i]).Some? ==> HitOf(q1, es[i], cfg) == HitOf(q2, es[i], cfg)
    ensures Collect(q1, es, cfg) == Collect(q2, es, cfg)
  {
    if es != [] {
      assert forall i :: 0 <= i < |es[1..]| ==> es[1..][i] == es[i + 1];
      CollectFollowsHits(q1, q2, es[1..], cfg);
    }
  }

  /** A case-insensitive search gives the same answer for any two terms that lower-case alike. */
  lemma SearchCaseVariants(q1: string, q2: string, es: seq<Element>, opts: UserOptions)
    requires WeightsUsable(opts)
    requires Prepare(opts).Ok? ==> !Prepare(opts).value.caseSensitive
    requires Text.Lower(q1) == Text.Lower(q2)
    ensures Search(q1, es, opts) == Search(q2, es, opts)
  {
    if Prepare(opts).Ok? {
      var cfg := Prepare(opts).value;
      assert Scoring.Fold(q1, false) == Scoring.Fold(q2, false);
      CollectFollowsHits(q1, q2, es, cfg);
    }
  }

  /** In particular, upper-casing the search term changes nothing. */
  lemma SearchIgnoresCase(q: string, es: seq<Element>, opts: UserOptions)
    requires WeightsUsable(opts)
    requires Prepare(opts).Ok? ==> !Prepare(opts).value.caseSensitive
    ensures Search(Text.Upper(q), es, opts) == Search(q, es, opts)
  {
    Text.LowerOfCaseVariants(q);
    Text.LowerIdempotent(q);
    SearchCaseVariants(Text.Upper(q), q, es, opts);
  }
}

=== FILE: jaccard.dfy ===
/**
 * N-gram distance (methods/jaccard.js).
 *
 * The source builds a map from each n-gram of `a` to its number of occurrences and
 * then walks the n-grams of `b`. On a hit it means to decrement the count, but the
 * call `m.set(c - 1)` stores under the NUMBER key `c - 1` and leaves the gram's count
 * alone. The matching count `g` is therefore the number of n-gram positions of `b`
 * whose gram occurs anywhere in `a`, which is what this module models.
 */
module Jaccard {
  import opened Common

  /** Default gram length when the caller's parameters name none. */
  const DefaultN: int := 2

  /** Number of grams the source extracts: `Math.max(len - n + 1, 0)`. */
  function GramCount(len: nat, n: int): nat {
    if len - n + 1 > 0 then len - n + 1 else 0
  }

  /** `s.substr(i, n)` for a start inside the gram range; empty for a non-positive length. */
  function Gram(s: string, i: nat, n: int): (g: string)
    requires i < GramCount(|s|, n)
  {
    if n <= 0 then "" else s[i..i + n]
  }

  /** The grams of `s`, in order of their start position. */
  function Grams(s: string, n: int): (gs: seq<string>)
    ensures |gs| == GramCount(|s|, n)
    ensures forall i :: 0 <= i < |gs| ==> gs[i] == Gram(s, i, n)
  {
    seq(GramCount(|s|, n), i requires 0 <= i < GramCount(|s|, n) => Gram(s, i, n))
  }

  /** Number of positions of `xs` whose entry occurs somewhere in `ys`. */
  function CountOccurring(xs: seq<string>, ys: seq<string>): (c: nat)
    ensures c <= |xs|
  {
    if xs == [] then 0
    else CountOccurring(xs[..|xs| - 1], ys) + (if xs[|xs| - 1] in ys then 1 else 0)
  }

  /** The count is zero exactly when no entry occurs, and full exactly when every entry does. */
  lemma {:induction false} CountOccurringExtremes(xs: seq<string>, ys: seq<string>)
    ensures CountOccurring(xs, ys) == 0 <==> forall i :: 0 <= i < |xs| ==> xs[i] !in ys
    ensures CountOccurring(xs, ys) == |xs| <==> forall i :: 0 <= i < |xs| ==> xs[i] in ys
  {
    if xs != [] {
      var init := xs[..|xs| - 1];
      CountOccurringExtremes(init, ys);
      assert forall i :: 0 <= i < |init| ==> init[i] == xs[i];
    }
  }

  /** The matching count `g` of the source: grams of `b` that occur among the grams of `a`. */
  function MatchCount(a: string, b: string, n: int): (g: nat)
    ensures g <= GramCount(|b|, n)
    ensures GramCount(|a|, n) == 0 ==> g == 0
  {
    CountOccurringExtremes(Grams(b, n), Grams(a, n));
    CountOccurring(Grams(b, n), Grams(a, n))
  }

  /** Keys of the source's `Map`: gram strings, and the number keys `m.set(c - 1)` writes. */
  datatype Key = GramKey(gram: string) | NumberKey(x: int)

  /** `m.get(k) || 0`: absent keys and keys holding `undefined` read as 0. */
  function Lookup(m: map<Key, Option<int>>, k: Key): int {
    if k in m then m[k].GetOr(0) else 0
  }

  /** Number of occurrences of `g` in `xs`. */
  function Occurrences(xs: seq<string>, g: string): (c: nat)
    ensures c > 0 <==> g in xs
  {
    if xs == [] then 0
    else
      var init := xs[..|xs| - 1];
      assert xs == init + [xs[|xs| - 1]];
      Occurrences(init, g) + (if xs[|xs| - 1] == g then 1 else 0)
  }

  /**
   * First loop of `matchingNgramCount`: the map from each gram of `a` to its number
   * of occurrences; every key it writes is a gram.
   */
  method GramOccurrences(a: string, n: int) returns (m: map<Key, Option<int>>)
    ensures forall k :: k in m ==> k.GramKey?
    ensures forall g :: Lookup(m, GramKey(g)) == Occurrences(Grams(a, n), g)
  {
    var ga := Grams(a, n);
    m := map[];
    var i := 0;
    while i < |a| - n + 1
      invariant 0 <= i <= |ga|
      invariant forall k :: k in m ==> k.GramKey?
      invariant forall g :: Lookup(m, GramKey(g)) == Occurrences(ga[..i], g)
    {
      var g := Gram(a, i, n);
      var c := Lookup(m, GramKey(g));
      ghost var before := m;
      m := m[GramKey(g) := Some(c + 1)];
      OccurrencesStep(ga, i);
      forall h
        ensures Lookup(m, GramKey(h)) == Occurrences(ga[..i + 1], h)
      {
        if h != g {
          assert Lookup(m, GramKey(h)) == Lookup(before, GramKey(h));
        }
      }
      i := i + 1;
    }
    assert ga[..i] == ga;
  }

  /** One more entry of `xs` adds one occurrence of itself and of nothing else. */
  lemma OccurrencesStep(xs: seq<string>, i: nat)
    requires i < |xs|
    ensures forall h :: Occurrences(xs[..i + 1], h) == Occurrences(xs[..i], h) + (if xs[i] == h then 1 else 0)
  {
    assert xs[..i + 1][..i] == xs[..i];
  }

  /**
   * `matchingNgramCount(a, b, n)` as written: count the grams of `b` whose lookup in
   * the occurrence map is non-zero, "decrementing" through `m.set(c - 1)`. The gram
   * counts are never decremented, so the result is the reference count above.
   */
  method MatchingNgramCount(a: string, b: string, n: int) returns (z: nat)
    ensures z == MatchCount(a, b, n)
  {
    var ga := Grams(a, n);
    var gb := Grams(b, n);
    var m := GramOccurrences(a, n);
    var i := 0;
    z := 0;
    while i < |b| - n + 1
      invariant 0 <= i <= |gb|
      invariant forall g :: Lookup(m, GramKey(g)) == Occurrences(ga, g)
      invariant z == CountOccurring(gb[..i], ga)
    {
      var g := Gram(b, i, n);
      var c := Lookup(m, GramKey(g));
      CountOccurringStep(gb, ga, i);
      if c != 0 {
        z := z + 1;
        NumberKeyKeepsGrams(m, c - 1);
        m := m[NumberKey(c - 1) := None];
      }
      i := i + 1;
    }
    assert gb[..i] == gb;
  }

  /** One more entry of `xs` adds one to the count exactly when it occurs in `ys`. */
  lemma CountOccurringStep(xs: seq<string>, ys: seq<string>, i: nat)
    requires i < |xs|
    ensures CountOccurring(xs[..i + 1], ys) == CountOccurring(xs[..i], ys) + (if xs[i] in ys then 1 else 0)
  {
    assert xs[..i + 1][..i] == xs[..i];
  }

  /** A write under a number key leaves every gram's lookup as it was. */
  lemma NumberKeyKeepsGrams(m: map<Key, Option<int>>, x: int)
    ensures forall g :: Lookup(m[NumberKey(x) := None], GramKey(g)) == Lookup(m, GramKey(g))
  {
  }

  /** `G ? 1 - g/(G-g) : 1` for gram counts `ga`, `gb` and matching count `g`. */
  function GramDistance(ga: nat, gb: nat, g: nat): (d: real)
    requires g <= gb && (ga == 0 ==> g == 0)
    ensures d <= 1.0
    ensures g == 0 ==> d == 1.0
  {
    if ga + gb == 0 then 1.0 else 1.0 - (g as real) / ((ga + gb - g) as real)
  }

  /**
   * `distance(a, b, {n})`: 1 when either string is empty, 0 on an exact match,
   * otherwise `1 - g / (G - g)` with `G` the total number of grams (1 when `G` is 0).
   * The result never exceeds 1; it can be negative (see NegativeDistance).
   */
  function Distance(a: string, b: string, n: int): (d: real)
    ensures |a| == 0 || |b| == 0 ==> d == 1.0
    ensures |a| > 0 && |b| > 0 && a == b ==> d == 0.0
    ensures d <= 1.0
  {
    if |a| == 0 || |b| == 0 then 1.0
    else if a == b then 0.0
    else
      GramDistance(GramCount(|a|, n), GramCount(|b|, n), MatchCount(a, b, n))
  }

  /** The denominator `G - g` is at least the gram count of `a` and never zero when `G` is not. */
  lemma DenominatorPositive(a: string, b: string, n: int)
    ensures MatchCount(a, b, n) <= GramCount(|b|, n)
    ensures |a| < n ==> MatchCount(a, b, n) == 0
    ensures var G := GramCount(|a|, n) + GramCount(|b|, n);
      G > 0 ==> G - MatchCount(a, b, n) >= GramCount(|a|, n) && G - MatchCount(a, b, n) > 0
  {
  }

  /** When no gram of `b` occurs in `a`, the strings are maximally distant. */
  lemma NoSharedGramIsMaximal(a: string, b: string, n: int)
    requires forall i :: 0 <= i < GramCount(|b|, n) ==> Gram(b, i, n) !in Grams(a, n)
    ensures Distance(a, b, n) == 1.0 || (|a| > 0 && a == b)
  {
    CountOccurringExtremes(Grams(b, n), Grams(a, n));
  }

  /** With grams of length at least 1, strings without a common character share no gram. */
  lemma NoCommonCharacterIsMaximal(a: string, b: string, n: int)
    requires n >= 1
    requires forall i, j :: 0 <= i < |a| && 0 <= j < |b| ==> a[i] != b[j]
    ensures Distance(a, b, n) == 1.0
  {
    forall i, j | 0 <= i < GramCount(|b|, n) && 0 <= j < GramCount(|a|, n)
      ensures Gram(b, i, n) != Gram(a, j, n)
    {
      assert Gram(b, i, n)[0] == b[i] && Gram(a, j, n)[0] == a[j];
    }
    assert forall i :: 0 <= i < GramCount(|b|, n) ==> Gram(b, i, n) !in Grams(a, n);
    NoSharedGramIsMaximal(a, b, n);
    if |a| > 0 && |b| > 0 {
      assert a[0] != b[0];
    }
  }

  /** Both strings shorter than the gram length (and different): no grams at all, distance 1. */
  lemma ShorterThanGramIsMaximal(a: string, b: string, n: int)
    requires |a| < n && |b| < n && a != b
    ensures Distance(a, b, n) == 1.0
  {
  }

  /**
   * The doc comment promises a value between 0 and 1, but the never-decremented count
   * lets `g` exceed `G - g`: "aaa" against "aaaa" with bigrams gives -1/2.
   */
  lemma NegativeDistance()
    ensures Distance("aaa", "aaaa", 2) == -0.5
  {
    var ga := Grams("aaa", 2);
    var gb := Grams("aaaa", 2);
    assert ga[0] == "aaa"[0..2] == "aa";
    assert |gb| == 3;
    assert gb[0] == "aaaa"[0..2] == "aa";
    assert gb[1] == "aaaa"[1..3] == "aa";
    assert gb[2] == "aaaa"[2..4] == "aa";
    assert forall i :: 0 <= i < |gb| ==> gb[i] in ga;
    CountOccurringExtremes(gb, ga);
  }
}

=== FILE: jaro_winkler.dfy ===
/**
 * Jaro–Winkler distance (methods/jaro-winkler.js), as pure functions.
 *
 * The match pass walks `a` left to right and, for each position `i`, marks the first
 * unmarked position of `b` inside the window `[i - range, i + range]` (clamped to `b`)
 * holding the same character. The transposition pass pairs the marked characters of
 * `a` and `b` in order and counts the pairs that differ. The Jaro weight combines both;
 * above 0.7 the Winkler bonus rewards a common prefix of up to four characters.
 */
module JaroWinkler {
  import opened Common

  /** Default prefix scale when the caller's parameters name none. */
  const DefaultP: real := 0.1
  /** Jaro weight above which the prefix bonus applies. */
  const BonusThreshold: real := 0.7
  /** Longest prefix the bonus looks at. */
  const MaxPrefix: nat := 4

  /** `Math.floor(Math.max(|a|, |b|) / 2) - 1`; -1 for strings of length at most 1. */
  function Range(la: nat, lb: nat): int {
    Max(la, lb) / 2 - 1
  }

  /** Lower end of the window for position `i`. */
  function Low(i: nat, range: int): nat {
    if i >= range then i - range else 0
  }

  /** Upper end of the window for position `i`, never past the last position of `b`. */
  function High(i: nat, range: int, lb: nat): int {
    if i + range <= lb - 1 then i + range else lb - 1
  }

  /** A negative range (strings of length at most 1) leaves every window empty. */
  lemma EmptyWindow(la: nat, lb: nat, i: nat)
    requires la <= 1 && lb <= 1
    ensures Range(la, lb) == -1
    ensures Low(i, Range(la, lb)) > High(i, Range(la, lb), lb)
  {
  }

  /** Every position of the window lies in `b` and at most `range` away from `i`. */
  lemma WindowBounds(i: nat, range: int, lb: nat, j: int)
    requires Low(i, range) <= j <= High(i, range, lb)
    ensures 0 <= j < lb
    ensures i - range <= j <= i + range
  {
  }

  /** Number of marked positions. */
  function CountTrue(s: seq<bool>): (c: nat)
    ensures c <= |s|
  {
    if s == [] then 0 else CountTrue(s[..|s| - 1]) + (if s[|s| - 1] then 1 else 0)
  }

  /** Marking an unmarked position adds exactly one mark. */
  lemma {:induction false} CountTrueMark(s: seq<bool>, k: nat)
    requires k < |s| && !s[k]
    ensures CountTrue(s[k := true]) == CountTrue(s) + 1
  {
    var t := s[k := true];
    if k < |s| - 1 {
      assert t[..|t| - 1] == s[..|s| - 1][k := true];
      CountTrueMark(s[..|s| - 1], k);
    } else {
      assert t[..|t| - 1] == s[..|s| - 1];
    }
  }

  /** All positions unmarked: no marks. */
  lemma {:induction false} CountTrueNone(s: seq<bool>)
    requires forall k :: 0 <= k < |s| ==> !s[k]
    ensures CountTrue(s) == 0
  {
    if s != [] {
      CountTrueNone(s[..|s| - 1]);
    }
  }

  /** One match the pass made: position `i` of `a` with position `j` of `b`. */
  datatype Pair = Pair(i: nat, j: nat)

  /**
   * State of the match pass: the two mark arrays, the match count `m`, and the pairs
   * the pass has made (kept by the model to state what the marks mean).
   */
  datatype MatchState = MatchState(aMatch: seq<bool>, bMatch: seq<bool>, m: nat, pairs: seq<Pair>)

  /** A pair joins equal characters inside the window, and both ends are marked. */
  predicate PairOk(a: string, b: string, range: int, st: MatchState, p: Pair)
    requires |st.aMatch| == |a| && |st.bMatch| == |b|
  {
    && p.i < |a| && p.j < |b|
    && a[p.i] == b[p.j]
    && p.i - range <= p.j <= p.i + range
    && st.aMatch[p.i] && st.bMatch[p.j]
  }

  /**
   * Invariant of the match pass after the first `i` rows: each pair is well formed,
   * no position of `a` or of `b` is used twice, the pairs account for every mark
   * (`m` marks in `a`, `m` marks in `b`), and rows `i..` are still unmarked.
   */
  predicate Matched(a: string, b: string, range: int, i: nat, st: MatchState) {
    && i <= |a| && |st.aMatch| == |a| && |st.bMatch| == |b|
    && st.m == |st.pairs| == CountTrue(st.aMatch) == CountTrue(st.bMatch)
    && (forall k :: 0 <= k < |st.pairs| ==> st.pairs[k].i < i && PairOk(a, b, range, st, st.pairs[k]))
    && (forall k, k' :: 0 <= k < k' < |st.pairs| ==>
          st.pairs[k].i < st.pairs[k'].i && st.pairs[k].j != st.pairs[k'].j)
    && (forall r :: i <= r < |a| ==> !st.aMatch[r])
  }

  /** The first position in `j..high` that is unmarked and holds `c`, if any. */
  function FirstFree(c: char, b: string, bMatch: seq<bool>, j: nat, high: int): (r: Option<nat>)
    requires |bMatch| == |b| && high < |b|
    ensures r.Some? ==> j <= r.value <= high && !bMatch[r.value] && b[r.value] == c
    ensures forall k :: j <= k <= high && (r.None? || k < r.value) ==> bMatch[k] || b[k] != c
    decreases high - j
  {
    if j > high then None
    else if !bMatch[j] && b[j] == c then Some(j)
    else FirstFree(c, b, bMatch, j + 1, high)
  }

  /** Initial state: nothing marked. */
  function Start(a: string, b: string): (st: MatchState)
    ensures Matched(a, b, Range(|a|, |b|), 0, st) && st.m == 0
  {
    var st := MatchState(seq(|a|, _ => false), seq(|b|, _ => false), 0, []);
    CountTrueNone(st.aMatch);
    CountTrueNone(st.bMatch);
    st
  }

  /** Row `i` of the match pass: mark `a[i]` against the first free equal character of its window. */
  function Step(a: string, b: string, range: int, i: nat, st: MatchState): (r: MatchState)
    requires i < |a| && Matched(a, b, range, i, st)
    ensures Matched(a, b, range, i + 1, r)
    ensures r.m <= st.m + 1
  {
    match FirstFree(a[i], b, st.bMatch, Low(i, range), High(i, range, |b|))
    case None => st
    case Some(j) =>
      WindowBounds(i, range, |b|, j);
      MarkKeepsMatched(a, b, range, i, st, j);
      Mark(st, i, j)
  }

  /** Pairing position `i` of `a` with position `j` of `b`: both marked, one more match. */
  function Mark(st: MatchState, i: nat, j: nat): MatchState
    requires i < |st.aMatch| && j < |st.bMatch|
  {
    MatchState(st.aMatch[i := true], st.bMatch[j := true], st.m + 1, st.pairs + [Pair(i, j)])
  }

  /** Marking row `i` against a free equal character inside its window keeps the invariant. */
  lemma MarkKeepsMatched(a: string, b: string, range: int, i: nat, st: MatchState, j: nat)
    requires i < |a| && Matched(a, b, range, i, st)
    requires j < |b| && !st.bMatch[j] && a[i] == b[j] && i - range <= j <= i + range
    ensures Matched(a, b, range, i + 1, Mark(st, i, j))
  {
    CountTrueMark(st.aMatch, i);
    CountTrueMark(st.bMatch, j);
    var r := Mark(st, i, j);
    assert forall k :: 0 <= k < |st.pairs| ==> r.pairs[k] == st.pairs[k];
    assert r.pairs[|st.pairs|] == Pair(i, j);
    forall k | 0 <= k < |r.pairs|
      ensures r.pairs[k].i < i + 1 && PairOk(a, b, range, r, r.pairs[k])
    {
    }
    forall k, k' | 0 <= k < k' < |r.pairs|
      ensures r.pairs[k].i < r.pairs[k'].i && r.pairs[k].j != r.pairs[k'].j
    {
      if k' == |st.pairs| {
        assert PairOk(a, b, range, st, st.pairs[k]);
      }
    }
  }

  /** Rows `i..|a|` of the match pass. */
  function MatchRows(a: string, b: string, range: int, i: nat, st: MatchState): (r: MatchState)
    requires Matched(a, b, range, i, st)
    ensures Matched(a, b, range, |a|, r)
    decreases |a| - i
  {
    if i == |a| then st else MatchRows(a, b, range, i + 1, Step(a, b, range, i, st))
  }

  /** The whole match pass; `m` matches, at most the length of either string. */
  function MatchPass(a: string, b: string): (r: MatchState)
    ensures Matched(a, b, Range(|a|, |b|), |a|, r)
    ensures r.m <= |a| && r.m <= |b|
  {
    MatchRows(a, b, Range(|a|, |b|), 0, Start(a, b))
  }

  /**
   * Rows before `i` are saturated: every equal character inside a row's window is marked
   * on one side or the other, so the greedy scan left no pair it could still have made.
   */
  predicate Maximal(a: string, b: string, range: int, i: nat, st: MatchState)
    requires i <= |a| && |st.aMatch| == |a| && |st.bMatch| == |b|
  {
    forall r, j :: 0 <= r < i && Low(r, range) <= j <= High(r, range, |b|) && a[r] == b[j] ==>
      st.aMatch[r] || st.bMatch[j]
  }

  /** A row either pairs `a[i]` or finds every equal character of its window already taken. */
  lemma StepMaximal(a: string, b: string, range: int, i: nat, st: MatchState)
    requires i < |a| && Matched(a, b, range, i, st) && Maximal(a, b, range, i, st)
    ensures Maximal(a, b, range, i + 1, Step(a, b, range, i, st))
  {
    var r := Step(a, b, range, i, st);
    match FirstFree(a[i], b, st.bMatch, Low(i, range), High(i, range, |b|))
    case None =>
    case Some(j) =>
      assert r == Mark(st, i, j);
      forall row, k | 0 <= row < i + 1 && Low(row, range) <= k <= High(row, range, |b|) && a[row] == b[k]
        ensures r.aMatch[row] || r.bMatch[k]
      {
        if row < i {
          assert st.aMatch[row] || st.bMatch[k];
        }
      }
  }

  /** Rows `i..|a|` keep the pass saturated. */
  lemma {:induction false} MatchRowsMaximal(a: string, b: string, range: int, i: nat, st: MatchState)
    requires Matched(a, b, range, i, st) && Maximal(a, b, range, i, st)
    ensures Maximal(a, b, range, |a|, MatchRows(a, b, range, i, st))
    decreases |a| - i
  {
    if i < |a| {
      StepMaximal(a, b, range, i, st);
      MatchRowsMaximal(a, b, range, i + 1, Step(a, b, range, i, st));
    }
  }

  /** After the whole pass, no equal character inside a window is left unmarked on both sides. */
  lemma MatchPassMaximal(a: string, b: string)
    ensures Maximal(a, b, Range(|a|, |b|), |a|, MatchPass(a, b))
  {
    MatchRowsMaximal(a, b, Range(|a|, |b|), 0, Start(a, b));
  }

  /** The characters of `s` at marked positions, in order. */
  function Select(s: string, marks: seq<bool>): (r: string)
    requires |marks| == |s|
    ensures |r| == CountTrue(marks)
  {
    if s == [] then []
    else
      Select(s[..|s| - 1], marks[..|marks| - 1]) + (if marks[|marks| - 1] then [s[|s| - 1]] else [])
  }

  /** Number of positions at which two equally long strings differ. */
  function Mismatches(x: string, y: string): (t: nat)
    requires |x| == |y|
    ensures t <= |x|
    ensures t == 0 <==> x == y
  {
    if x == [] then 0
    else
      var t := Mismatches(x[..|x| - 1], y[..|y| - 1]);
      assert x == y <==> x[..|x| - 1] == y[..|y| - 1] && x[|x| - 1] == y[|y| - 1];
      t + (if x[|x| - 1] != y[|y| - 1] then 1 else 0)
  }

  /**
   * Transpositions: the i-th marked character of `a` against the i-th marked character
   * of `b`, counting the pairs that differ.
   */
  function Transpositions(a: string, b: string, aMatch: seq<bool>, bMatch: seq<bool>): (t: nat)
    requires |aMatch| == |a| && |bMatch| == |b| && CountTrue(aMatch) == CountTrue(bMatch)
    ensures t <= CountTrue(aMatch)
  {
    Mismatches(Select(a, aMatch), Select(b, bMatch))
  }

  /** A fraction `x / y` with `0 < x <= y` lies in (0, 1] and is 1 only when `x == y`. */
  lemma Fraction(x: real, y: real)
    requires 0.0 < x <= y
    ensures 0.0 < x / y <= 1.0
    ensures x / y == 1.0 <==> x == y
  {
  }

  /**
   * The Jaro weight `(m/|a| + m/|b| + (m - t/2)/m) / 3` lies in (0, 1], and it is 1
   * exactly when every character of both strings is matched and nothing is transposed.
   */
  function JaroWeight(la: nat, lb: nat, m: nat, t: nat): (w: real)
    requires 0 < m <= la && m <= lb && t <= m
    ensures 0.0 < w <= 1.0
    ensures w == 1.0 <==> m == la && m == lb && t == 0
  {
    var x := (m as real) / (la as real);
    var y := (m as real) / (lb as real);
    var z := ((m as real) - (t as real) / 2.0) / (m as real);
    Fraction(m as real, la as real);
    Fraction(m as real, lb as real);
    Fraction((m as real) - (t as real) / 2.0, m as real);
    (x + y + z) / 3.0
  }

  /** `s[i]`, or `undefined` past the end. */
  function CharAt(s: string, i: nat): Option<char> {
    if i < |s| then Some(s[i]) else None
  }

  /** The prefix loop from `l`: advance while both strings hold the same character (or both end) and fewer than four are counted. */
  function PrefixFrom(a: string, b: string, l: nat): (r: nat)
    requires l <= MaxPrefix
    ensures l <= r <= MaxPrefix
    ensures forall k :: l <= k < r ==> CharAt(a, k) == CharAt(b, k)
    ensures r < MaxPrefix ==> CharAt(a, r) != CharAt(b, r)
    decreases MaxPrefix - l
  {
    if CharAt(a, l) == CharAt(b, l) && l < MaxPrefix then PrefixFrom(a, b, l + 1) else l
  }

  /** Length of the common prefix the bonus rewards. */
  function PrefixLength(a: string, b: string): nat
  {
    PrefixFrom(a, b, 0)
  }

  /** The Winkler adjustment `weight + l * p * (1 - weight)`. */
  function Boost(w: real, l: nat, p: real): real {
    w + (l as real) * p * (1.0 - w)
  }

  /** The weight after the prefix bonus, which only applies above 0.7. */
  function WinklerWeight(w: real, l: nat, p: real): real {
    if w > BonusThreshold then Boost(w, l, p) else w
  }

  /** Multiplying by a non-negative factor keeps an inequality. */
  lemma ScaleLe(x: real, y: real, c: real)
    requires x <= y && 0.0 <= c
    ensures x * c <= y * c
  {
  }

  /** Multiplying by a positive factor keeps a strict inequality. */
  lemma ScaleLt(x: real, y: real, c: real)
    requires x < y && 0.0 < c
    ensures x * c < y * c
  {
  }

  /**
   * For a scale `p` in [0, 1/4] the bonus never lowers the weight and never lifts it
   * past 1; below 1/4 a weight under 1 stays under 1. At most 0.7 there is no bonus.
   */
  lemma BonusBounds(w: real, l: nat, p: real)
    requires 0.0 < w <= 1.0 && l <= MaxPrefix
    ensures w <= BonusThreshold ==> WinklerWeight(w, l, p) == w
    ensures 0.0 <= p <= 0.25 ==> w <= WinklerWeight(w, l, p) <= 1.0
    ensures 0.0 <= p < 0.25 && w < 1.0 ==> WinklerWeight(w, l, p) < 1.0
  {
    if 0.0 <= p <= 0.25 && w > BonusThreshold {
      BoostBounds(w, l, p);
    }
  }

  lemma BoostBounds(w: real, l: nat, p: real)
    requires 0.0 < w <= 1.0 && l <= MaxPrefix && 0.0 <= p <= 0.25
    ensures w <= Boost(w, l, p) <= 1.0
    ensures p < 0.25 && w < 1.0 ==> Boost(w, l, p) < 1.0
  {
    var lr := l as real;
    assert Boost(w, l, p) == w + lr * p * (1.0 - w);
    BonusShare(lr, p, w);
  }

  /** With `l` in [0, 4] and `p` in [0, 1/4], `w + l * p * (1 - w)` stays in [w, 1], and under 1 when `p < 1/4` and `w < 1`. */
  lemma BonusShare(l: real, p: real, w: real)
    requires 0.0 <= l <= 4.0 && 0.0 <= p <= 0.25 && w <= 1.0
    ensures w <= w + l * p * (1.0 - w) <= 1.0
    ensures p < 0.25 && w < 1.0 ==> w + l * p * (1.0 - w) < 1.0
  {
    ScaleLe(0.0, l, p);
    ScaleLe(l, 4.0, p);
    assert l * p <= 4.0 * p <= 1.0;
    InterpolateWithin(l * p, w);
    if p < 0.25 && w < 1.0 {
      assert l * p < 1.0;
      InterpolateShort(l * p, w);
    }
  }

  /** Moving a fraction `s` in [0, 1] of the way from `w` to 1 stays in [w, 1]. */
  lemma InterpolateWithin(s: real, w: real)
    requires 0.0 <= s <= 1.0 && w <= 1.0
    ensures w <= w + s * (1.0 - w) <= 1.0
  {
    ScaleLe(0.0, s, 1.0 - w);
    ScaleLe(s, 1.0, 1.0 - w);
  }

  /** A fraction `s < 1` of the way from `w < 1` to 1 falls short of 1. */
  lemma InterpolateShort(s: real, w: real)
    requires 0.0 <= s < 1.0 && w < 1.0
    ensures w + s * (1.0 - w) < 1.0
  {
    ScaleLt(s, 1.0, 1.0 - w);
  }

  /** `distance(a, b, {p})`. */
  function Distance(a: string, b: string, p: real): (d: real)
    ensures |a| == 0 || |b| == 0 ==> d == 1.0
    ensures |a| > 0 && |b| > 0 && a == b ==> d == 0.0
    ensures 0.0 <= p <= 0.25 ==> 0.0 <= d <= 1.0
  {
    if |a| == 0 || |b| == 0 then 1.0
    else if a == b then 0.0
    else
      var st := MatchPass(a, b);
      if st.m == 0 then 1.0
      else
        var t := Transpositions(a, b, st.aMatch, st.bMatch);
        BonusBounds(JaroWeight(|a|, |b|, st.m, t), PrefixLength(a, b), p);
        1.0 - WinklerWeight(JaroWeight(|a|, |b|, st.m, t), PrefixLength(a, b), p)
  }

  /** Agreeing (including `undefined` past the end) on every index up to both lengths makes the strings equal. */
  lemma AgreeingStringsAreEqual(a: string, b: string, l: nat)
    requires forall k :: 0 <= k < l ==> CharAt(a, k) == CharAt(b, k)
    requires l > |a| || l > |b|
    ensures a == b
  {
    var shorter := Min(|a|, |b|);
    assert CharAt(a, shorter) == CharAt(b, shorter);
    assert |a| == |b|;
    forall k | 0 <= k < |a|
      ensures a[k] == b[k]
    {
      assert CharAt(a, k) == CharAt(b, k);
    }
  }

  /**
   * The prefix loop stops within both strings unless they are equal (for equal strings
   * shorter than four it runs on past their end, comparing `undefined` with itself).
   */
  lemma PrefixWithinBoth(a: string, b: string)
    ensures a == b || (PrefixLength(a, b) <= |a| && PrefixLength(a, b) <= |b|)
  {
    var l := PrefixLength(a, b);
    if l > |a| || l > |b| {
      AgreeingStringsAreEqual(a, b, l);
    }
  }

  /**
   * For different strings the bonus length is a common prefix of both strings, of at
   * most four characters.
   */
  lemma PrefixIsCommon(a: string, b: string)
    requires a != b
    ensures PrefixLength(a, b) <= MaxPrefix
    ensures PrefixLength(a, b) <= |a| && PrefixLength(a, b) <= |b|
    ensures a[..PrefixLength(a, b)] == b[..PrefixLength(a, b)]
  {
    PrefixWithinBoth(a, b);
    var l := PrefixLength(a, b);
    assert forall k :: 0 <= k < l ==> CharAt(a, k) == CharAt(b, k);
  }

  /** Fully marked strings select every character. */
  lemma {:induction false} SelectAll(s: string, marks: seq<bool>)
    requires |marks| == |s| && CountTrue(marks) == |marks|
    ensures Select(s, marks) == s
  {
    if s != [] {
      assert CountTrue(marks[..|marks| - 1]) <= |marks| - 1;
      SelectAll(s[..|s| - 1], marks[..|marks| - 1]);
      assert s == s[..|s| - 1] + [s[|s| - 1]];
    }
  }

  /** A perfect Jaro weight means every character of both strings was matched, in order. */
  lemma PerfectWeightMeansEqual(a: string, b: string)
    requires |a| > 0 && |b| > 0
    ensures var st := MatchPass(a, b);
      st.m > 0 ==> (JaroWeight(|a|, |b|, st.m, Transpositions(a, b, st.aMatch, st.bMatch)) == 1.0 ==> a == b)
  {
    var st := MatchPass(a, b);
    if st.m > 0 && JaroWeight(|a|, |b|, st.m, Transpositions(a, b, st.aMatch, st.bMatch)) == 1.0 {
      SelectAll(a, st.aMatch);
      SelectAll(b, st.bMatch);
    }
  }

  /**
   * For a prefix scale in [0, 1/4) the distance of two non-empty strings is 0 exactly
   * when they are equal.
   */
  lemma ZeroExactlyForEqual(a: string, b: string, p: real)
    requires |a| > 0 && |b| > 0 && 0.0 <= p < 0.25
    ensures Distance(a, b, p) == 0.0 <==> a == b
  {
    var st := MatchPass(a, b);
    if a != b && st.m > 0 {
      var t := Transpositions(a, b, st.aMatch, st.bMatch);
      PerfectWeightMeansEqual(a, b);
      BonusBounds(JaroWeight(|a|, |b|, st.m, t), PrefixLength(a, b), p);
    }
  }

  /** Every match joins equal characters, so a pass with matches found a shared character. */
  lemma MatchesShareCharacters(a: string, b: string)
    ensures MatchPass(a, b).m > 0 ==> exists i, j :: 0 <= i < |a| && 0 <= j < |b| && a[i] == b[j]
  {
    var st := MatchPass(a, b);
    if st.m > 0 {
      assert PairOk(a, b, Range(|a|, |b|), st, st.pairs[0]);
    }
  }

  /** Strings without a common character have no matches, hence distance 1. */
  lemma NoCommonCharacterIsMaximal(a: string, b: string, p: real)
    requires forall i, j :: 0 <= i < |a| && 0 <= j < |b| ==> a[i] != b[j]
    ensures MatchPass(a, b).m == 0
    ensures Distance(a, b, p) == 1.0
  {
    MatchesShareCharacters(a, b);
    if |a| > 0 && |b| > 0 {
      assert a[0] != b[0];
    }
  }

  /** Some character of `a` has an equal character of `b` inside its window. */
  predicate SharedInWindow(a: string, b: string) {
    exists i, j :: 0 <= i < |a| && Low(i, Range(|a|, |b|)) <= j <= High(i, Range(|a|, |b|), |b|) && a[i] == b[j]
  }

  /** A sequence with a marked position has a mark. */
  lemma {:induction false} CountTruePositive(s: seq<bool>, k: nat)
    requires k < |s| && s[k]
    ensures CountTrue(s) > 0
  {
    if k < |s| - 1 {
      CountTruePositive(s[..|s| - 1], k);
    }
  }

  /** The pass makes a match exactly when some character has an equal one inside its window. */
  lemma MatchesIffSharedInWindow(a: string, b: string)
    ensures MatchPass(a, b).m > 0 <==> SharedInWindow(a, b)
  {
    MatchIsSharedInWindow(a, b);
    if SharedInWindow(a, b) {
      SharedInWindowIsMatched(a, b);
    }
  }

  /** Every pair the pass makes is an equal character inside its row's window. */
  lemma MatchIsSharedInWindow(a: string, b: string)
    ensures MatchPass(a, b).m > 0 ==> SharedInWindow(a, b)
  {
    var range := Range(|a|, |b|);
    var st := MatchPass(a, b);
    if st.m > 0 {
      var p := st.pairs[0];
      assert PairOk(a, b, range, st, p);
      assert Low(p.i, range) <= p.j <= High(p.i, range, |b|);
    }
  }

  /** A saturated pass cannot miss every equal character inside the windows. */
  lemma SharedInWindowIsMatched(a: string, b: string)
    requires SharedInWindow(a, b)
    ensures MatchPass(a, b).m > 0
  {
    var range := Range(|a|, |b|);
    var st := MatchPass(a, b);
    var i, j :| 0 <= i < |a| && Low(i, range) <= j <= High(i, range, |b|) && a[i] == b[j];
    MatchPassMaximal(a, b);
    if st.aMatch[i] {
      CountTruePositive(st.aMatch, i);
    } else {
      CountTruePositive(st.bMatch, j);
    }
  }

  /**
   * For different strings and a scale in [0, 1/4], the distance falls below 1 exactly
   * when some character of `a` has an equal character of `b` inside its window.
   */
  lemma SharedInWindowIsBelowOne(a: string, b: string, p: real)
    requires a != b && 0.0 <= p <= 0.25
    ensures Distance(a, b, p) < 1.0 <==> SharedInWindow(a, b)
  {
    MatchesIffSharedInWindow(a, b);
    var st := MatchPass(a, b);
    if |a| > 0 && |b| > 0 && st.m > 0 {
      var t := Transpositions(a, b, st.aMatch, st.bMatch);
      BonusBounds(JaroWeight(|a|, |b|, st.m, t), PrefixLength(a, b), p);
    }
  }
}

=== FILE: jaro_winkler_scan.dfy ===
/**
 * The loops of methods/jaro-winkler.js on mutable mark arrays, each shown to compute
 * what the functional model in JaroWinkler defines.
 */
module JaroWinklerScan {
  import opened Common
  import opened JaroWinkler

  /**
   * The inner loop of the match pass (lines 45-51): the first position `j` of the
   * window `low..high` at which `a[i]` is still unmarked, `b[j]` is unmarked, and the
   * characters agree. Row `i` is never marked before its own scan, so `aMarked` is false
   * whenever the source reaches this loop.
   */
  method ScanWindow(c: char, aMarked: bool, b: string, bm: array<bool>, low: nat, high: int)
    returns (hit: Option<nat>)
    requires bm.Length == |b| && high < |b|
    ensures !aMarked ==> hit == FirstFree(c, b, bm[..], low, high)
    ensures aMarked ==> hit == None
  {
    var j := low;
    while j <= high
      invariant low <= j
      invariant !aMarked ==> FirstFree(c, b, bm[..], j, high) == FirstFree(c, b, bm[..], low, high)
    {
      if !aMarked && !bm[j] && c == b[j] {
        return Some(j);
      }
      j := j + 1;
    }
    return None;
  }

  /** One row of the match pass on the arrays: the marks afterwards are those of Step. */
  method MarkRow(a: string, b: string, range: int, i: nat, am: array<bool>, bm: array<bool>, ghost st: MatchState)
    returns (hit: bool)
    requires i < |a| && Matched(a, b, range, i, st)
    requires am != bm && am[..] == st.aMatch && bm[..] == st.bMatch
    modifies am, bm
    ensures am[..] == Step(a, b, range, i, st).aMatch && bm[..] == Step(a, b, range, i, st).bMatch
    ensures hit <==> Step(a, b, range, i, st).m == st.m + 1
  {
    var found := ScanWindow(a[i], am[i], b, bm, Low(i, range), High(i, range, |b|));
    hit := found.Some?;
    if hit {
      am[i] := true;
      bm[found.value] := true;
    }
  }

  /** One row of the match pass with its count: arrays and count follow Step, and the remaining rows are unchanged. */
  method Advance(a: string, b: string, range: int, i: nat, am: array<bool>, bm: array<bool>, m: nat, ghost st: MatchState)
    returns (m': nat, ghost st': MatchState)
    requires i < |a| && Matched(a, b, range, i, st) && m == st.m
    requires am != bm && am[..] == st.aMatch && bm[..] == st.bMatch
    modifies am, bm
    ensures st' == Step(a, b, range, i, st) && Matched(a, b, range, i + 1, st')
    ensures am[..] == st'.aMatch && bm[..] == st'.bMatch && m' == st'.m
    ensures MatchRows(a, b, range, i + 1, st') == MatchRows(a, b, range, i, st)
  {
    var hit := MarkRow(a, b, range, i, am, bm, st);
    st' := Step(a, b, range, i, st);
    m' := if hit then m + 1 else m;
  }

  /** `new Array(n)`: no position is marked yet. */
  method Unmarked(n: nat) returns (marks: array<bool>)
    ensures fresh(marks) && marks[..] == seq(n, _ => false)
  {
    marks := new bool[n](_ => false);
  }

  /**
   * The match pass (lines 37-52): for each position of `a`, scan its window in `b`
   * and mark the first unmarked equal character. The marks and the count agree with
   * MatchPass, so each position is marked at most once, every mark has a partner
   * holding the same character within the window, and `m` counts the marks on either side.
   */
  method MatchScan(a: string, b: string) returns (aMatch: seq<bool>, bMatch: seq<bool>, m: nat)
    ensures aMatch == MatchPass(a, b).aMatch && bMatch == MatchPass(a, b).bMatch && m == MatchPass(a, b).m
    ensures |aMatch| == |a| && |bMatch| == |b|
    ensures m == CountTrue(aMatch) == CountTrue(bMatch)
    ensures m <= |a| && m <= |b|
  {
    var range := Range(|a|, |b|);
    var am := Unmarked(|a|);
    var bm := Unmarked(|b|);
    m := 0;
    ghost var st := Start(a, b);
    var i := 0;
    while i < |a|
      invariant 0 <= i <= |a|
      invariant am[..] == st.aMatch && bm[..] == st.bMatch && m == st.m
      invariant Matched(a, b, range, i, st)
      invariant MatchRows(a, b, range, i, st) == MatchPass(a, b)
    {
      m, st := Advance(a, b, range, i, am, bm, m, st);
      i := i + 1;
    }
    assert st == MatchPass(a, b);
    aMatch := am[..];
    bMatch := bm[..];
  }

  /** Extending a prefix by one position extends its selection by that character if it is marked. */
  lemma SelectExtend(s: string, marks: seq<bool>, i: nat)
    requires |marks| == |s| && i < |s|
    ensures Select(s[..i + 1], marks[..i + 1]) == Select(s[..i], marks[..i]) + (if marks[i] then [s[i]] else [])
  {
    assert s[..i + 1][..i] == s[..i];
    assert marks[..i + 1][..i] == marks[..i];
  }

  /** Unmarked positions between `k` and `j` add nothing to the selection. */
  lemma {:induction false} SelectSkip(s: string, marks: seq<bool>, k: nat, j: nat)
    requires |marks| == |s| && k <= j <= |s|
    requires forall q :: k <= q < j ==> !marks[q]
    ensures Select(s[..j], marks[..j]) == Select(s[..k], marks[..k])
    decreases j - k
  {
    if j > k {
      SelectSkip(s, marks, k, j - 1);
      SelectExtend(s, marks, j - 1);
    }
  }

  /** A prefix holds no more marks than the whole. */
  lemma {:induction false} CountTruePrefix(marks: seq<bool>, k: nat)
    requires k <= |marks|
    ensures CountTrue(marks[..k]) <= CountTrue(marks)
    decreases |marks| - k
  {
    assert marks[..|marks|] == marks;
    if k < |marks| {
      CountTruePrefix(marks, k + 1);
      assert marks[..k + 1][..k] == marks[..k];
      assert CountTrue(marks[..k + 1]) == CountTrue(marks[..k]) + (if marks[k] then 1 else 0);
    }
  }

  /** If fewer marks lie before `k` than in all of `marks`, a marked position lies at or after `k`. */
  lemma {:induction false} MarkAhead(marks: seq<bool>, k: nat)
    requires k <= |marks| && CountTrue(marks[..k]) < CountTrue(marks)
    ensures exists q :: k <= q < |marks| && marks[q]
    decreases |marks| - k
  {
    assert marks[..|marks|] == marks;
    if !marks[k] {
      assert marks[..k + 1][..k] == marks[..k];
      MarkAhead(marks, k + 1);
    }
  }

  /** A prefix with all the marks selects everything. */
  lemma {:induction false} SelectPrefixFull(s: string, marks: seq<bool>, k: nat)
    requires |marks| == |s| && k <= |s| && CountTrue(marks[..k]) == CountTrue(marks)
    ensures Select(s[..k], marks[..k]) == Select(s, marks)
    decreases |s| - k
  {
    assert s[..|s|] == s && marks[..|s|] == marks;
    if k < |s| {
      var last := |s| - 1;
      CountTruePrefix(marks[..last], k);
      assert marks[..last][..k] == marks[..k];
      assert s[..last][..k] == s[..k];
      SelectPrefixFull(s[..last], marks[..last], k);
      SelectExtend(s, marks, last);
    }
  }

  /** Appending one character to each string adds one mismatch exactly when they differ. */
  lemma MismatchesExtend(x: string, y: string, c: char, d: char)
    requires |x| == |y|
    ensures Mismatches(x + [c], y + [d]) == Mismatches(x, y) + (if c != d then 1 else 0)
  {
    assert (x + [c])[..|x|] == x;
    assert (y + [d])[..|y|] == y;
  }

  /**
   * The transposition pass (lines 56-68): walk the marked positions of `a` in order
   * while a forward pointer `k` finds the next marked position of `b`. Because both
   * sides hold the same number of marks, the search for the next mark always stays
   * inside `b` (the source's `b[j]` is never read past the end), `k` strictly increases
   * on every marked position of `a`, and the result is the number of differing
   * pairs of the i-th marked characters, at most `m`.
   */
  method TranspositionScan(a: string, b: string, aMatch: seq<bool>, bMatch: seq<bool>) returns (numTrans: nat)
    requires |aMatch| == |a| && |bMatch| == |b| && CountTrue(aMatch) == CountTrue(bMatch)
    ensures numTrans == Transpositions(a, b, aMatch, bMatch)
    ensures numTrans <= CountTrue(aMatch)
  {
    var k := 0;
    numTrans := 0;
    var i := 0;
    while i < |a|
      invariant 0 <= i <= |a| && 0 <= k <= |b|
      invariant CountTrue(aMatch[..i]) == CountTrue(bMatch[..k])
      invariant numTrans == Mismatches(Select(a[..i], aMatch[..i]), Select(b[..k], bMatch[..k]))
    {
      k, numTrans := TranspositionStep(a, b, aMatch, bMatch, i, k, numTrans);
      i := i + 1;
    }
    assert a[..i] == a && aMatch[..i] == aMatch;
    SelectPrefixFull(b, bMatch, k);
  }

  /**
   * One row of the transposition scan. A marked `a[i]` is compared with the next marked
   * character of `b`, and the pointer `k` moves strictly forward past it without leaving
   * `b`. An unmarked row changes nothing.
   */
  method TranspositionStep(a: string, b: string, aMatch: seq<bool>, bMatch: seq<bool>, i: nat, k: nat, n: nat)
    returns (k': nat, n': nat)
    requires |aMatch| == |a| && |bMatch| == |b| && CountTrue(aMatch) == CountTrue(bMatch)
    requires i < |a| && k <= |b|
    requires CountTrue(aMatch[..i]) == CountTrue(bMatch[..k])
    requires n == Mismatches(Select(a[..i], aMatch[..i]), Select(b[..k], bMatch[..k]))
    ensures aMatch[i] ==> k < k' <= |b| && bMatch[k' - 1]
    ensures !aMatch[i] ==> k' == k && n' == n
    ensures CountTrue(aMatch[..i + 1]) == CountTrue(bMatch[..k'])
    ensures n' == Mismatches(Select(a[..i + 1], aMatch[..i + 1]), Select(b[..k'], bMatch[..k']))
  {
    if aMatch[i] {
      k', n' := PairNext(a, b, aMatch, bMatch, i, k, n);
    } else {
      CountTrueExtend(aMatch, i);
      SelectExtend(a, aMatch, i);
      assert Select(a[..i + 1], aMatch[..i + 1]) == Select(a[..i], aMatch[..i]);
      k', n' := k, n;
    }
  }

  /** A marked row: pair `a[i]` with the next marked character of `b` and count a mismatch. */
  method PairNext(a: string, b: string, aMatch: seq<bool>, bMatch: seq<bool>, i: nat, k: nat, n: nat)
    returns (k': nat, n': nat)
    requires |aMatch| == |a| && |bMatch| == |b| && CountTrue(aMatch) == CountTrue(bMatch)
    requires i < |a| && k <= |b| && aMatch[i]
    requires CountTrue(aMatch[..i]) == CountTrue(bMatch[..k])
    requires n == Mismatches(Select(a[..i], aMatch[..i]), Select(b[..k], bMatch[..k]))
    ensures k < k' <= |b| && bMatch[k' - 1]
    ensures CountTrue(aMatch[..i + 1]) == CountTrue(bMatch[..k'])
    ensures n' == Mismatches(Select(a[..i + 1], aMatch[..i + 1]), Select(b[..k'], bMatch[..k']))
  {
    CountTrueExtend(aMatch, i);
    assert CountTrue(bMatch[..k]) < CountTrue(bMatch) by {
      CountTruePrefix(aMatch, i + 1);
    }
    var j := NextMark(b, bMatch, k);
    PairStep(a, b, aMatch, bMatch, i, k, j);
    k' := j + 1;
    n' := if a[i] != b[j] then n + 1 else n;
  }

  /** Pairing the marked position `i` of `a` with the next marked position `j` of `b` adds one comparison. */
  lemma PairStep(a: string, b: string, aMatch: seq<bool>, bMatch: seq<bool>, i: nat, k: nat, j: nat)
    requires |aMatch| == |a| && |bMatch| == |b| && i < |a| && aMatch[i] && k <= j < |b|
    requires CountTrue(aMatch[..i]) == CountTrue(bMatch[..k])
    requires CountTrue(aMatch[..i + 1]) == CountTrue(aMatch[..i]) + 1
    requires Select(b[..j + 1], bMatch[..j + 1]) == Select(b[..k], bMatch[..k]) + [b[j]]
    ensures Mismatches(Select(a[..i + 1], aMatch[..i + 1]), Select(b[..j + 1], bMatch[..j + 1]))
      == Mismatches(Select(a[..i], aMatch[..i]), Select(b[..k], bMatch[..k])) + (if a[i] != b[j] then 1 else 0)
  {
    SelectExtend(a, aMatch, i);
    assert Select(a[..i + 1], aMatch[..i + 1]) == Select(a[..i], aMatch[..i]) + [a[i]];
    MismatchesExtend(Select(a[..i], aMatch[..i]), Select(b[..k], bMatch[..k]), a[i], b[j]);
  }

  /** Extending a prefix by one position counts that position's mark. */
  lemma CountTrueExtend(marks: seq<bool>, i: nat)
    requires i < |marks|
    ensures CountTrue(marks[..i + 1]) == CountTrue(marks[..i]) + (if marks[i] then 1 else 0)
  {
    assert marks[..i + 1][..i] == marks[..i];
  }

  /**
   * The inner loop of the transposition pass (lines 60-65): from `k`, the next marked
   * position of `b`. It exists while `b` has marks left beyond `k`, so the scan never
   * leaves the string, and the prefix up to it selects exactly one more character.
   */
  method NextMark(b: string, bMatch: seq<bool>, k: nat) returns (j: nat)
    requires |bMatch| == |b| && k <= |b| && CountTrue(bMatch[..k]) < CountTrue(bMatch)
    ensures k <= j < |b| && bMatch[j]
    ensures forall q :: k <= q < j ==> !bMatch[q]
    ensures Select(b[..j + 1], bMatch[..j + 1]) == Select(b[..k], bMatch[..k]) + [b[j]]
    ensures CountTrue(bMatch[..j + 1]) == CountTrue(bMatch[..k]) + 1
  {
    MarkAhead(bMatch, k);
    j := SkipUnmarked(bMatch, k);
    SelectSkip(b, bMatch, k, j);
    SelectExtend(b, bMatch, j);
    CountTrueSkip(bMatch, k, j);
    CountTrueExtend(bMatch, j);
  }

  /** The inner scan from `k` that stops at the first marked position of `b`, given that a mark lies ahead. */
  method SkipUnmarked(marks: seq<bool>, k: nat) returns (j: nat)
    requires exists q :: k <= q < |marks| && marks[q]
    ensures k <= j < |marks| && marks[j]
    ensures forall q :: k <= q < j ==> !marks[q]
  {
    j := k;
    while !marks[j]
      invariant k <= j < |marks|
      invariant forall q :: k <= q < j ==> !marks[q]
      invariant exists q :: j <= q < |marks| && marks[q]
      decreases |marks| - j
    {
      j := j + 1;
    }
  }

  /** Unmarked positions between `k` and `j` add nothing to the count. */
  lemma {:induction false} CountTrueSkip(marks: seq<bool>, k: nat, j: nat)
    requires k <= j <= |marks|
    requires forall q :: k <= q < j ==> !marks[q]
    ensures CountTrue(marks[..j]) == CountTrue(marks[..k])
    decreases j - k
  {
    if j > k {
      CountTrueSkip(marks, k, j - 1);
      CountTrueExtend(marks, j - 1);
    }
  }

  /**
   * `distance(a, b, {p})` as the source runs it: early exits, the match pass, the
   * transposition pass, the Jaro weight, then the prefix loop and bonus. It returns
   * the distance the functional model defines, so it lies in [0, 1] for `p` in [0, 1/4].
   */
  method DistanceScan(a: string, b: string, p: real) returns (d: real)
    ensures d == Distance(a, b, p)
    ensures 0.0 <= p <= 0.25 ==> 0.0 <= d <= 1.0
  {
    if |a| == 0 || |b| == 0 {
      return 1.0;
    }
    if a == b {
      return 0.0;
    }
    var aMatch, bMatch, m := MatchScan(a, b);
    if m == 0 {
      return 1.0;
    }
    var numTrans := TranspositionScan(a, b, aMatch, bMatch);
    var weight := JaroWeight(|a|, |b|, m, numTrans);
    ghost var jaro := weight;
    assert Distance(a, b, p) == 1.0 - WinklerWeight(jaro, PrefixLength(a, b), p);
    var l := 0;
    if weight > BonusThreshold {
      while CharAt(a, l) == CharAt(b, l) && l < MaxPrefix
        invariant l <= MaxPrefix
        invariant PrefixFrom(a, b, l) == PrefixLength(a, b)
        decreases MaxPrefix - l
      {
        l := l + 1;
      }
      assert l == PrefixLength(a, b);
      weight := Boost(weight, l, p);
    }
    assert weight == WinklerWeight(jaro, PrefixLength(a, b), p);
    return 1.0 - weight;
  }
}

=== FILE: options.dfy ===
/**
 * Option handling of fuzzybear.js: defaults (`optionsDefaults`), method shorthand
 * normalisation, the empty-methods check (`validateOptions`) and method loading
 * (`loadMethods`), with the dynamic `require` of a method file replaced by a closed
 * registry of the two built-in algorithms.
 */
module Options {
  import opened Common

  /** `params` of a method; a field left out takes the algorithm's own default. */
  datatype Params = Params(p: Option<real>, n: Option<int>)

  const NoParams: Params := Params(None, None)

  /** A caller-supplied distance function, called as `fn(a, b, params)`. */
  type DistanceFn = (string, string, Params) -> real

  /** One entry of `options.methods` as a caller may write it. */
  datatype MethodEntry =
    | NameEntry(methodName: string)
    | FunctionEntry(distance: DistanceFn)
    | ObjectEntry(name: Option<string>, fn: Option<DistanceFn>, weight: Option<real>, params: Params)
    | OtherEntry

  /** A method after normalisation: always a weight, a name and/or a function. */
  datatype Method = Method(name: Option<string>, fn: Option<DistanceFn>, weight: real, params: Params)

  /** The errors the source throws. */
  datatype Error =
    | InvalidMethodDefinition
    | NoSearchMethods
    | MethodNotFound(name: Option<string>)
    | ElementWithoutValue

  /** The message of each error; a missing method file fails inside `require`. */
  function Message(e: Error): string {
    match e
    case InvalidMethodDefinition => "Invalid method definition"
    case NoSearchMethods => "No search methods specified."
    case MethodNotFound(_) => "Cannot find module"
    case ElementWithoutValue => "Element without value is not searchable"
  }

  /** The options a caller passes; `None` is a field left out. */
  datatype UserOptions = UserOptions(
    results: Option<int>,
    minScore: Option<real>,
    caseSensitive: Option<bool>,
    methods: Option<seq<MethodEntry>>)

  const NoOptions: UserOptions := UserOptions(None, None, None, None)

  /**
   * Options after defaulting. `minScore` is `None` for the default `-Number.MAX_VALUE`,
   * which no finite score falls below.
   */
  datatype Settings = Settings(results: int, minScore: Option<real>, caseSensitive: bool, methods: seq<Method>)

  const DefaultResults: int := 0
  const DefaultCaseSensitive: bool := false
  const DefaultMethods: seq<MethodEntry> := [
    ObjectEntry(Some("jaro-winkler"), None, Some(1.5), Params(Some(0.1), None)),
    ObjectEntry(Some("jaccard"), None, Some(1.0), Params(None, Some(2)))
  ]

  /** The weight an entry ends up with: 1 unless an object states one. */
  function EntryWeight(e: MethodEntry): real {
    if e.ObjectEntry? && e.weight.Some? then e.weight.value else 1.0
  }

  /**
   * Shorthand normalisation: a name becomes `{name, weight: 1}`, a function
   * `{function, weight: 1}`, an object keeps its fields and gets weight 1 when it has
   * none, and anything else is an invalid method definition.
   */
  function Normalize(e: MethodEntry): (r: Result<Method, Error>)
    ensures r.Err? <==> e.OtherEntry?
    ensures r.Err? ==> r.error == InvalidMethodDefinition && Message(r.error) == "Invalid method definition"
    ensures r.Ok? ==> r.value.weight == EntryWeight(e)
    ensures e.NameEntry? ==> r.Ok? && r.value.name == Some(e.methodName) && r.value.fn.None? && r.value.params == NoParams
    ensures e.FunctionEntry? ==> r.Ok? && r.value.name.None? && r.value.fn == Some(e.distance) && r.value.params == NoParams
    ensures e.ObjectEntry? ==> r.Ok? && r.value.name == e.name && r.value.fn == e.fn && r.value.params == e.params
  {
    match e
    case NameEntry(name) => Ok(Method(Some(name), None, 1.0, NoParams))
    case FunctionEntry(fn) => Ok(Method(None, Some(fn), 1.0, NoParams))
    case ObjectEntry(name, fn, weight, params) => Ok(Method(name, fn, weight.GetOr(1.0), params))
    case OtherEntry => Err(InvalidMethodDefinition)
  }

  /** `options.methods.map(...)`: fails on the first malformed entry. */
  function NormalizeAll(es: seq<MethodEntry>): (r: Result<seq<Method>, Error>)
    ensures r.Ok? <==> forall i :: 0 <= i < |es| ==> !es[i].OtherEntry?
    ensures r.Err? ==> r.error == InvalidMethodDefinition
    ensures r.Ok? ==> |r.value| == |es|
    ensures r.Ok? ==> forall i :: 0 <= i < |es| ==> Normalize(es[i]) == Ok(r.value[i])
  {
    if es == [] then Ok([])
    else
      var m :- Normalize(es[0]);
      var rest :- NormalizeAll(es[1..]);
      assert forall i :: 1 <= i < |es| ==> es[i] == es[1..][i - 1];
      Ok([m] + rest)
  }

  /**
   * `optionsDefaults`: every field the caller supplies overrides its default, and the
   * method entries are normalised.
   */
  function OptionsDefaults(opts: UserOptions): (r: Result<Settings, Error>)
    ensures r.Ok? <==> forall i :: 0 <= i < |opts.methods.GetOr(DefaultMethods)| ==> !opts.methods.GetOr(DefaultMethods)[i].OtherEntry?
    ensures r.Err? ==> r.error == InvalidMethodDefinition
    ensures r.Ok? ==> r.value.results == opts.results.GetOr(DefaultResults)
    ensures r.Ok? ==> r.value.minScore == opts.minScore
    ensures r.Ok? ==> r.value.caseSensitive == opts.caseSensitive.GetOr(DefaultCaseSensitive)
    ensures r.Ok? ==> |r.value.methods| == |opts.methods.GetOr(DefaultMethods)|
    ensures r.Ok? ==> forall i :: 0 <= i < |r.value.methods| ==>
      Normalize(opts.methods.GetOr(DefaultMethods)[i]) == Ok(r.value.methods[i])
  {
    var methods :- NormalizeAll(opts.methods.GetOr(DefaultMethods));
    Ok(Settings(
      opts.results.GetOr(DefaultResults),
      opts.minScore,
      opts.caseSensitive.GetOr(DefaultCaseSensitive),
      methods))
  }

  /** `validateOptions`: at least one method. */
  function ValidateOptions(s: Settings): (r: Result<Settings, Error>)
    ensures r.Ok? <==> |s.methods| > 0
    ensures r.Ok? ==> r.value == s
    ensures r.Err? ==> r.error == NoSearchMethods && Message(r.error) == "No search methods specified."
  {
    if |s.methods| == 0 then Err(NoSearchMethods) else Ok(s)
  }

  /** The distance functions a loaded method can hold. */
  datatype Algorithm = JaroWinklerAlgorithm | JaccardAlgorithm | CustomAlgorithm(fn: DistanceFn)

  /** A method ready to score: its distance function, weight and parameters. */
  datatype Loaded = Loaded(algorithm: Algorithm, weight: real, params: Params)

  /** The method files the source can `require`; any other name fails to load. */
  function Registry(name: Option<string>): (r: Result<Algorithm, Error>)
    ensures r.Ok? <==> name == Some("jaro-winkler") || name == Some("jaccard")
    ensures r.Ok? ==> !r.value.CustomAlgorithm?
    ensures name == Some("jaro-winkler") ==> r == Ok(JaroWinklerAlgorithm)
    ensures name == Some("jaccard") ==> r == Ok(JaccardAlgorithm)
    ensures r.Err? ==> r.error == MethodNotFound(name)
  {
    if name == Some("jaro-winkler") then Ok(JaroWinklerAlgorithm)
    else if name == Some("jaccard") then Ok(JaccardAlgorithm)
    else Err(MethodNotFound(name))
  }

  /** Loading one method: a supplied function wins, otherwise the name is looked up. */
  function LoadMethod(m: Method): (r: Result<Loaded, Error>)
    ensures m.fn.Some? ==> r == Ok(Loaded(CustomAlgorithm(m.fn.value), m.weight, m.params))
    ensures m.fn.None? ==> r.Ok? == Registry(m.name).Ok?
    ensures m.fn.None? && Registry(m.name).Ok? ==> r == Ok(Loaded(Registry(m.name).value, m.weight, m.params))
    ensures m.fn.None? && Registry(m.name).Err? ==> r == Err(Registry(m.name).error)
    ensures r.Ok? ==> r.value.weight == m.weight && r.value.params == m.params
  {
    if m.fn.Some? then Ok(Loaded(CustomAlgorithm(m.fn.value), m.weight, m.params))
    else
      var algorithm :- Registry(m.name);
      Ok(Loaded(algorithm, m.weight, m.params))
  }

  /** `loadMethods`: fails on the first method that cannot be loaded. */
  function LoadMethods(ms: seq<Method>): (r: Result<seq<Loaded>, Error>)
    ensures r.Ok? <==> forall i :: 0 <= i < |ms| ==> LoadMethod(ms[i]).Ok?
    ensures r.Ok? ==> |r.value| == |ms|
    ensures r.Ok? ==> forall i :: 0 <= i < |ms| ==> LoadMethod(ms[i]) == Ok(r.value[i])
  {
    if ms == [] then Ok([])
    else
      var l :- LoadMethod(ms[0]);
      var rest :- LoadMethods(ms[1..]);
      assert forall i :: 1 <= i < |ms| ==> ms[i] == ms[1..][i - 1];
      Ok([l] + rest)
  }

  /** Everything scoring needs, after defaults, validation and loading. */
  datatype Config = Config(results: int, minScore: Option<real>, caseSensitive: bool, methods: seq<Loaded>)

  /**
   * The preparation both `search` and `score` run first. Malformed entries fail before
   * an empty method list, which fails before any method is loaded.
   */
  function Prepare(opts: UserOptions): (r: Result<Config, Error>)
    ensures OptionsDefaults(opts).Err? ==> r == Err(InvalidMethodDefinition)
    ensures OptionsDefaults(opts).Ok? && |opts.methods.GetOr(DefaultMethods)| == 0 ==> r == Err(NoSearchMethods)
    ensures r.Ok? ==> |r.value.methods| == |opts.methods.GetOr(DefaultMethods)| > 0
    ensures OptionsDefaults(opts).Ok? && |opts.methods.GetOr(DefaultMethods)| > 0 ==>
      (r.Ok? <==> LoadMethods(OptionsDefaults(opts).value.methods).Ok?)
    ensures OptionsDefaults(opts).Ok? && |opts.methods.GetOr(DefaultMethods)| > 0 && r.Err? ==>
      r == Err(LoadMethods(OptionsDefaults(opts).value.methods).error)
    ensures r.Ok? ==> var s := OptionsDefaults(opts).value;
      r.value == Config(s.results, s.minScore, s.caseSensitive, LoadMethods(s.methods).value)
    ensures r.Ok? ==> forall i :: 0 <= i < |r.value.methods| ==>
      r.value.methods[i].weight == EntryWeight(opts.methods.GetOr(DefaultMethods)[i])
  {
    var settings :- OptionsDefaults(opts);
    var valid :- ValidateOptions(settings);
    var methods :- LoadMethods(valid.methods);
    Ok(Config(valid.results, valid.minScore, valid.caseSensitive, methods))
  }

  /** The two default methods, loaded. */
  const DefaultLoaded: seq<Loaded> := [
    Loaded(JaroWinklerAlgorithm, 1.5, Params(Some(0.1), None)),
    Loaded(JaccardAlgorithm, 1.0, Params(None, Some(2)))
  ]

  /** With no options at all: every result, no score floor, case-insensitive, the two default methods. */
  lemma PrepareDefaults()
    ensures Prepare(NoOptions) == Ok(Config(0, None, false, DefaultLoaded))
  {
    var s := OptionsDefaults(NoOptions);
    assert s.Ok?;
    assert s.value.methods == [
      Method(Some("jaro-winkler"), None, 1.5, Params(Some(0.1), None)),
      Method(Some("jaccard"), None, 1.0, Params(None, Some(2)))
    ];
    var ms := s.value.methods;
    assert Registry(Some("jaccard")) == Ok(JaccardAlgorithm) by {
      assert "jaccard" != "jaro-winkler" by { assert "jaccard"[2] != "jaro-winkler"[2]; }
    }
    assert LoadMethod(ms[0]) == Ok(DefaultLoaded[0]);
    assert LoadMethod(ms[1]) == Ok(DefaultLoaded[1]);
    var all := LoadMethods(ms);
    assert all.Ok? && |all.value| == 2;
    assert LoadMethod(ms[0]) == Ok(all.value[0]) && LoadMethod(ms[1]) == Ok(all.value[1]);
    assert all.value == DefaultLoaded;
  }
}

=== FILE: ranking.dfy ===
/**
 * Ordering of the result set in fuzzybear.js: `Array.prototype.sort` with the
 * comparator `right._score - left._score`, which is stable, followed by
 * `slice(0, results)` when `results` is positive.
 */
module Ranking {
  import opened Common
  import opened Records

  /** Scores never increase along the sequence. */
  predicate Descending(hs: seq<Hit>) {
    forall i, j :: 0 <= i < j < |hs| ==> hs[i].score >= hs[j].score
  }

  /** The hits with score `s`, in their order in `hs`. */
  function WithScore(hs: seq<Hit>, s: real): seq<Hit> {
    if hs == [] then []
    else (if hs[0].score == s then [hs[0]] else []) + WithScore(hs[1..], s)
  }

  /**
   * Insertion of `h` into a descending sequence: in front of the first hit that does
   * not outscore it, so after every hit with a higher score.
   */
  function Insert(h: Hit, hs: seq<Hit>): (r: seq<Hit>)
    requires Descending(hs)
    ensures Descending(r)
    ensures multiset(r) == multiset(hs) + multiset{h}
    ensures |r| == |hs| + 1
    ensures forall x :: x in r ==> x == h || x in hs
  {
    if hs == [] || hs[0].score <= h.score then [h] + hs
    else
      var rest := Insert(h, hs[1..]);
      SplitFirst(hs);
      TopOutscores(hs[0], rest);
      [hs[0]] + rest
  }

  lemma SplitFirst(hs: seq<Hit>)
    requires hs != []
    ensures multiset(hs) == multiset{hs[0]} + multiset(hs[1..])
  {
    assert hs == [hs[0]] + hs[1..];
  }

  /** A hit that outscores every hit of a descending sequence can lead it. */
  lemma TopOutscores(top: Hit, hs: seq<Hit>)
    requires Descending(hs)
    requires forall x :: x in hs ==> x.score <= top.score
    ensures Descending([top] + hs)
  {
    forall i, j | 0 <= i < j < |[top] + hs|
      ensures ([top] + hs)[i].score >= ([top] + hs)[j].score
    {
      if i > 0 {
        assert ([top] + hs)[i] == hs[i - 1];
      }
      assert ([top] + hs)[j] == hs[j - 1];
      assert hs[j - 1] in hs;
    }
  }

  /** The stable descending sort. */
  function Sort(hs: seq<Hit>): (r: seq<Hit>)
    ensures Descending(r)
    ensures multiset(r) == multiset(hs)
    ensures |r| == |hs|
  {
    if hs == [] then []
    else
      SplitFirst(hs);
      Insert(hs[0], Sort(hs[1..]))
  }

  /** Inserting `h` adds it in front of the hits with its own score and leaves the others' order. */
  lemma {:induction false} InsertWithScore(h: Hit, hs: seq<Hit>, s: real)
    requires Descending(hs)
    ensures WithScore(Insert(h, hs), s) == (if h.score == s then [h] else []) + WithScore(hs, s)
  {
    var mine := if h.score == s then [h] else [];
    if hs != [] && hs[0].score > h.score {
      var top := if hs[0].score == s then [hs[0]] else [];
      DescendingTail(hs);
      var rest := Insert(h, hs[1..]);
      calc {
        WithScore(Insert(h, hs), s);
      == { assert Insert(h, hs) == [hs[0]] + rest; }
        WithScore([hs[0]] + rest, s);
      == { WithScoreCons(hs[0], rest, s); }
        top + WithScore(rest, s);
      == { InsertWithScore(h, hs[1..], s); }
        top + (mine + WithScore(hs[1..], s));
      == { assert top == [] || mine == []; }
        mine + (top + WithScore(hs[1..], s));
      == { WithScoreCons(hs[0], hs[1..], s); assert [hs[0]] + hs[1..] == hs; }
        mine + WithScore(hs, s);
      }
    } else {
      assert Insert(h, hs) == [h] + hs;
      WithScoreCons(h, hs, s);
    }
  }

  lemma DescendingTail(hs: seq<Hit>)
    requires Descending(hs) && hs != []
    ensures Descending(hs[1..])
  {
  }

  /** `WithScore` of a sequence with a given first hit. */
  lemma WithScoreCons(x: Hit, hs: seq<Hit>, s: real)
    ensures WithScore([x] + hs, s) == (if x.score == s then [x] else []) + WithScore(hs, s)
  {
    assert ([x] + hs)[1..] == hs;
  }

  /**
   * Stability: for every score, the hits with that score come out in the order they
   * went in.
   */
  lemma {:induction false} SortIsStable(hs: seq<Hit>, s: real)
    ensures WithScore(Sort(hs), s) == WithScore(hs, s)
  {
    if hs != [] {
      SortIsStable(hs[1..], s);
      InsertWithScore(hs[0], Sort(hs[1..]), s);
    }
  }

  /** No hit outside a prefix of a descending sequence outscores a hit inside it. */
  lemma PrefixKeepsBest(hs: seq<Hit>, k: nat)
    requires Descending(hs) && k <= |hs|
    ensures forall h, x :: h in hs && h !in hs[..k] && x in hs[..k] ==> x.score >= h.score
  {
    assert forall j :: 0 <= j < k ==> hs[j] == hs[..k][j];
    forall h, x | h in hs && h !in hs[..k] && x in hs[..k]
      ensures x.score >= h.score
    {
      var j :| 0 <= j < |hs| && hs[j] == h;
      var i :| 0 <= i < k && hs[..k][i] == x;
      assert k <= j;
    }
  }

  /** A prefix of a descending permutation of `hs` holds only hits of `hs` and the best of them. */
  lemma PrefixOfSorted(hs: seq<Hit>, sorted: seq<Hit>, k: nat)
    requires Descending(sorted) && multiset(sorted) == multiset(hs) && k <= |sorted|
    ensures multiset(sorted[..k]) <= multiset(hs)
    ensures forall h :: h in sorted[..k] ==> h in hs
    ensures forall h, x :: h in hs && h !in sorted[..k] && x in sorted[..k] ==> x.score >= h.score
  {
    PrefixMultiset(sorted, k);
    assert forall h :: h in sorted[..k] ==> h in multiset(sorted);
    assert forall h :: h in hs ==> h in multiset(sorted);
    PrefixKeepsBest(sorted, k);
  }

  /** A prefix holds no more copies of any hit than the whole sequence. */
  lemma PrefixMultiset(hs: seq<Hit>, k: nat)
    requires k <= |hs|
    ensures multiset(hs[..k]) <= multiset(hs)
  {
    assert hs == hs[..k] + hs[k..];
  }

  /** `slice(0, results)` when `results` is positive. */
  function Truncate(hs: seq<Hit>, results: int): (r: seq<Hit>)
    ensures |r| == if results > 0 && results < |hs| then results else |hs|
    ensures r == hs[..|r|]
  {
    if results > 0 && results < |hs| then hs[..results] else hs
  }

  /**
   * Sorting then cutting: the result is best first, holds only given hits, has
   * `min(results, |hs|)` of them (all when `results` is not positive), and no hit left
   * out scores higher than one kept.
   */
  function Rank(hs: seq<Hit>, results: int): (out: seq<Hit>)
    ensures Descending(out)
    ensures forall h :: h in out ==> h in hs
    ensures |out| == if results > 0 then Min(results, |hs|) else |hs|
    ensures results <= 0 ==> multiset(out) == multiset(hs)
    ensures multiset(out) <= multiset(hs)
    ensures forall h, x :: h in hs && h !in out && x in out ==> x.score >= h.score
    ensures out == Sort(hs)[..|out|]
  {
    var sorted := Sort(hs);
    var out := Truncate(sorted, results);
    PrefixOfSorted(hs, sorted, |out|);
    out
  }
}

=== FILE: records.dfy ===
/**
 * The elements `search` accepts and the result objects it returns (fuzzybear.js).
 * Objects are maps from property names to values; only string and number values
 * matter to the search, every other value is opaque.
 */
module Records {
  import opened Common

  /** A property value: a string, a number, or anything else (told apart by an identity). */
  datatype JsValue = JsString(str: string) | JsNumber(num: real) | JsOther(id: nat)

  type Fields = map<string, JsValue>

  /** An element of the searched list: a bare string, an object, or any other value. */
  datatype Element = TextElement(text: string) | ObjectElement(fields: Fields) | OtherElement

  /** The property the search reads, and the one it adds. */
  const ValueField: string := "value"
  const ScoreField: string := "_score"

  /** The searchable string of an element: the string itself, or an object's string `value`. */
  function ValueOf(e: Element): (v: Option<string>)
    ensures e.TextElement? ==> v == Some(e.text)
    ensures e.ObjectElement? ==> (v.Some? <==> ValueField in e.fields && e.fields[ValueField].JsString?)
    ensures e.OtherElement? ==> v.None?
  {
    match e
    case TextElement(s) => Some(s)
    case ObjectElement(fields) =>
      if ValueField in fields && fields[ValueField].JsString? then Some(fields[ValueField].str) else None
    case OtherElement => None
  }

  /**
   * The object an element stands for: a bare string becomes `{value: s}`, an object is
   * itself. Either way the record carries the searchable string under `value`.
   */
  function RecordOf(e: Element): (r: Fields)
    requires ValueOf(e).Some?
    ensures ValueField in r && r[ValueField] == JsString(ValueOf(e).value)
    ensures e.ObjectElement? ==> r == e.fields
    ensures e.TextElement? ==> r.Keys == {ValueField}
  {
    match e
    case TextElement(s) => map[ValueField := JsString(s)]
    case ObjectElement(fields) => fields
  }

  /** A kept element: its record and its score. */
  datatype Hit = Hit(fields: Fields, score: real)

  /** `Object.assign({}, element, {_score: score})`: a copy with `_score` set. */
  function Output(h: Hit): (o: Fields)
    ensures o.Keys == h.fields.Keys + {ScoreField}
    ensures o[ScoreField] == JsNumber(h.score)
    ensures forall k :: k in h.fields && k != ScoreField ==> o[k] == h.fields[k]
  {
    h.fields[ScoreField := JsNumber(h.score)]
  }
}

=== FILE: scoring.dfy ===
/**
 * `score` of fuzzybear.js: the weighted mean of `1 - distance` over the loaded
 * methods, on case-folded strings unless the search is case-sensitive.
 */
module Scoring {
  import opened Common
  import Text
  import opened Options
  import JaroWinkler
  import Jaccard

  /**
   * Calling a loaded method: a parameter the method leaves out takes its algorithm's
   * default. The built-in distances are 1 for an empty string and 0 for equal strings;
   * the n-gram distance never exceeds 1, and the Jaro-Winkler one stays in [0, 1] for
   * a prefix scale in [0, 0.25].
   */
  function Apply(algorithm: Algorithm, a: string, b: string, params: Params): (d: real)
    ensures !algorithm.CustomAlgorithm? && (|a| == 0 || |b| == 0) ==> d == 1.0
    ensures !algorithm.CustomAlgorithm? && |a| > 0 && a == b ==> d == 0.0
    ensures algorithm.JaccardAlgorithm? ==> d <= 1.0
    ensures algorithm.JaroWinklerAlgorithm? && 0.0 <= params.p.GetOr(JaroWinkler.DefaultP) <= 0.25 ==> 0.0 <= d <= 1.0
    ensures algorithm.JaroWinklerAlgorithm? ==> d == JaroWinkler.Distance(a, b, params.p.GetOr(JaroWinkler.DefaultP))
    ensures algorithm.JaccardAlgorithm? ==> d == Jaccard.Distance(a, b, params.n.GetOr(Jaccard.DefaultN))
    ensures algorithm.CustomAlgorithm? ==> d == algorithm.fn(a, b, params)
  {
    match algorithm
    case JaroWinklerAlgorithm => JaroWinkler.Distance(a, b, params.p.GetOr(JaroWinkler.DefaultP))
    case JaccardAlgorithm => Jaccard.Distance(a, b, params.n.GetOr(Jaccard.DefaultN))
    case CustomAlgorithm(fn) => fn(a, b, params)
  }

  /** The distance method `m` reports between `a` and `b`. */
  function MethodDistance(m: Loaded, a: string, b: string): real {
    Apply(m.algorithm, a, b, m.params)
  }

  /** The string a method sees: lower-cased unless the search is case-sensitive. */
  function Fold(s: string, caseSensitive: bool): (r: string)
    ensures |r| == |s|
    ensures caseSensitive ==> r == s
  {
    if caseSensitive then s else Text.Lower(s)
  }

  /** One method's contribution to a score: the distance it reports and its weight. */
  datatype Term = Term(distance: real, weight: real)

  /** The terms of the methods, in order, for the strings `a` and `b`. */
  function Terms(a: string, b: string, ms: seq<Loaded>): (ts: seq<Term>)
    ensures |ts| == |ms|
    ensures forall i :: 0 <= i < |ms| ==> ts[i] == Term(MethodDistance(ms[i], a, b), ms[i].weight)
  {
    seq(|ms|, i requires 0 <= i < |ms| => Term(MethodDistance(ms[i], a, b), ms[i].weight))
  }

  /** `weight += method.weight` over the methods. */
  function TotalWeight(ms: seq<Loaded>): real {
    if ms == [] then 0.0 else ms[0].weight + TotalWeight(ms[1..])
  }

  /** The sum of the weights of some terms. */
  function Weight(ts: seq<Term>): real {
    if ts == [] then 0.0 else ts[0].weight + Weight(ts[1..])
  }

  /** `score += (1 - distance) * method.weight` over the terms. */
  function Similarity(ts: seq<Term>): real {
    if ts == [] then 0.0 else (1.0 - ts[0].distance) * ts[0].weight + Similarity(ts[1..])
  }

  /** The terms carry the methods' weights. */
  lemma {:induction false} TermsWeight(a: string, b: string, ms: seq<Loaded>)
    ensures Weight(Terms(a, b, ms)) == TotalWeight(ms)
  {
    if ms != [] {
      TermsWeight(a, b, ms[1..]);
      assert Terms(a, b, ms)[1..] == Terms(a, b, ms[1..]);
    }
  }

  /**
   * `score / weight`. A zero total weight makes the source divide by zero (NaN); the
   * model excludes it.
   */
  function Score(q: string, t: string, caseSensitive: bool, ms: seq<Loaded>): (s: real)
    requires TotalWeight(ms) != 0.0
  {
    Similarity(Terms(Fold(q, caseSensitive), Fold(t, caseSensitive), ms)) / TotalWeight(ms)
  }

  lemma Distribute(x: real, w: real, rest: real)
    ensures (1.0 - x) * w + (1.0 - x) * rest == (1.0 - x) * (w + rest)
  {
  }

  /** When every term has the same distance, the similarity is that share of the weight. */
  lemma {:induction false} UniformSum(ts: seq<Term>, c: real)
    requires forall x :: x in ts ==> x.distance == c
    ensures Similarity(ts) == (1.0 - c) * Weight(ts)
  {
    if ts != [] {
      UniformSum(ts[1..], c);
      Distribute(c, ts[0].weight, Weight(ts[1..]));
    }
  }

  /** Terms that all report distance `c` average to the similarity `1 - c`. */
  lemma UniformRatio(ts: seq<Term>, c: real)
    requires Weight(ts) != 0.0
    requires forall x :: x in ts ==> x.distance == c
    ensures Similarity(ts) / Weight(ts) == 1.0 - c
  {
    UniformSum(ts, c);
    Cancel(Similarity(ts), 1.0 - c, Weight(ts));
  }

  lemma Cancel(s: real, x: real, w: real)
    requires w != 0.0 && s == x * w
    ensures s / w == x
  {
  }

  /** Every method reporting distance `c` gives the score `1 - c`, whatever the weights. */
  lemma ScoreOfUniformDistance(q: string, t: string, caseSensitive: bool, ms: seq<Loaded>, c: real)
    requires TotalWeight(ms) != 0.0
    requires forall m :: m in ms ==> MethodDistance(m, Fold(q, caseSensitive), Fold(t, caseSensitive)) == c
    ensures Score(q, t, caseSensitive, ms) == 1.0 - c
  {
    var a, b := Fold(q, caseSensitive), Fold(t, caseSensitive);
    var ts := Terms(a, b, ms);
    forall x | x in ts
      ensures x.distance == c
    {
      var i :| 0 <= i < |ts| && ts[i] == x;
      assert ms[i] in ms;
    }
    TermsWeight(a, b, ms);
    UniformRatio(ts, c);
    assert Score(q, t, caseSensitive, ms) == Similarity(ts) / Weight(ts);
  }

  /** With one method the score is exactly one minus that method's distance. */
  lemma ScoreOfOneMethod(q: string, t: string, caseSensitive: bool, ms: seq<Loaded>)
    requires |ms| == 1 && TotalWeight(ms) != 0.0
    ensures TotalWeight(ms) == ms[0].weight
    ensures Score(q, t, caseSensitive, ms) == 1.0 - MethodDistance(ms[0], Fold(q, caseSensitive), Fold(t, caseSensitive))
  {
    assert ms[1..] == [];
    assert forall m :: m in ms ==> m == ms[0];
    ScoreOfUniformDistance(q, t, caseSensitive, ms, MethodDistance(ms[0], Fold(q, caseSensitive), Fold(t, caseSensitive)));
  }

  /** The total weight of two method lists is the sum of their totals. */
  lemma {:induction false} TotalWeightAppend(ms1: seq<Loaded>, ms2: seq<Loaded>)
    ensures TotalWeight(ms1 + ms2) == TotalWeight(ms1) + TotalWeight(ms2)
  {
    if ms1 != [] {
      assert (ms1 + ms2)[1..] == ms1[1..] + ms2;
      TotalWeightAppend(ms1[1..], ms2);
    } else {
      assert ms1 + ms2 == ms2;
    }
  }

  /** The similarity of two runs of terms is the sum of their similarities. */
  lemma {:induction false} SimilarityAppend(ts1: seq<Term>, ts2: seq<Term>)
    ensures Similarity(ts1 + ts2) == Similarity(ts1) + Similarity(ts2)
  {
    if ts1 != [] {
      assert (ts1 + ts2)[1..] == ts1[1..] + ts2;
      SimilarityAppend(ts1[1..], ts2);
    } else {
      assert ts1 + ts2 == ts2;
    }
  }

  /** The terms of two method lists are the terms of each, in order. */
  lemma {:induction false} TermsAppend(a: string, b: string, ms1: seq<Loaded>, ms2: seq<Loaded>)
    ensures Terms(a, b, ms1 + ms2) == Terms(a, b, ms1) + Terms(a, b, ms2)
  {
  }

  /** Running two method lists one after the other accumulates the sum of their similarities. */
  lemma {:induction false} SimilarityOfConcatenation(a: string, b: string, ms1: seq<Loaded>, ms2: seq<Loaded>)
    ensures Similarity(Terms(a, b, ms1 + ms2)) == Similarity(Terms(a, b, ms1)) + Similarity(Terms(a, b, ms2))
  {
    TermsAppend(a, b, ms1, ms2);
    SimilarityAppend(Terms(a, b, ms1), Terms(a, b, ms2));
  }

  /** `s / w`. */
  function Ratio(s: real, w: real): real
    requires w != 0.0
  {
    s / w
  }

  /** The mean of `x1` and `x2` weighted by `w1` and `w2`. */
  function WeightedMean(w1: real, x1: real, w2: real, x2: real): real
    requires w1 + w2 != 0.0
  {
    (w1 * x1 + w2 * x2) / (w1 + w2)
  }

  /** `s / w` scaled back by `w` is `s`. */
  lemma Uncancel(s: real, w: real)
    requires w != 0.0
    ensures w * (s / w) == s
  {
  }

  /** `(s1 + s2) / (w1 + w2)` is the mean of `s1 / w1` and `s2 / w2` weighted by `w1` and `w2`. */
  lemma MeanOfRatios(s1: real, w1: real, s2: real, w2: real, s: real, w: real)
    requires w1 != 0.0 && w2 != 0.0 && w != 0.0
    requires s == s1 + s2 && w == w1 + w2
    ensures Ratio(s, w) == WeightedMean(w1, Ratio(s1, w1), w2, Ratio(s2, w2))
  {
    Uncancel(s1, w1);
    Uncancel(s2, w2);
  }

  /** A score is the accumulated similarity over the total weight. */
  lemma {:induction false} ScoreIsRatio(q: string, t: string, caseSensitive: bool, ms: seq<Loaded>)
    requires TotalWeight(ms) != 0.0
    ensures Score(q, t, caseSensitive, ms) ==
      Ratio(Similarity(Terms(Fold(q, caseSensitive), Fold(t, caseSensitive), ms)), TotalWeight(ms))
  {
  }

  /**
   * The score is the weighted mean of the methods' similarities: over two method lists
   * it is the mean of their own scores, each weighted by its list's total weight.
   */
  lemma {:induction false} ScoreOfConcatenation(q: string, t: string, caseSensitive: bool, ms1: seq<Loaded>, ms2: seq<Loaded>)
    requires TotalWeight(ms1) != 0.0 && TotalWeight(ms2) != 0.0 && TotalWeight(ms1 + ms2) != 0.0
    ensures TotalWeight(ms1 + ms2) == TotalWeight(ms1) + TotalWeight(ms2)
    ensures Score(q, t, caseSensitive, ms1 + ms2) ==
      WeightedMean(TotalWeight(ms1), Score(q, t, caseSensitive, ms1), TotalWeight(ms2), Score(q, t, caseSensitive, ms2))
  {
    var a, b := Fold(q, caseSensitive), Fold(t, caseSensitive);
    TotalWeightAppend(ms1, ms2);
    SimilarityOfConcatenation(a, b, ms1, ms2);
    ScoreIsRatio(q, t, caseSensitive, ms1);
    ScoreIsRatio(q, t, caseSensitive, ms2);
    ScoreIsRatio(q, t, caseSensitive, ms1 + ms2);
    MeanOfRatios(Similarity(Terms(a, b, ms1)), TotalWeight(ms1), Similarity(Terms(a, b, ms2)), TotalWeight(ms2),
      Similarity(Terms(a, b, ms1 + ms2)), TotalWeight(ms1 + ms2));
  }

  /** Non-negative weights and distances in [0, 1] keep the similarity between 0 and the weight. */
  lemma {:induction false} SumBounds(ts: seq<Term>)
    requires forall x :: x in ts ==> x.weight >= 0.0 && 0.0 <= x.distance <= 1.0
    ensures 0.0 <= Similarity(ts) <= Weight(ts)
  {
    if ts != [] {
      SumBounds(ts[1..]);
      TermBounds(ts[0].distance, ts[0].weight);
    }
  }

  lemma TermBounds(d: real, w: real)
    requires 0.0 <= d <= 1.0 && w >= 0.0
    ensures 0.0 <= (1.0 - d) * w <= w
  {
    assert (1.0 - d) * w == w - d * w;
    assert d * w >= 0.0;
  }

  lemma RatioBounds(s: real, w: real)
    requires 0.0 <= s <= w && w != 0.0
    ensures 0.0 <= s / w <= 1.0
  {
  }

  /** Non-negative weights and distances in [0, 1] give a score in [0, 1]. */
  lemma ScoreInUnitInterval(q: string, t: string, caseSensitive: bool, ms: seq<Loaded>)
    requires TotalWeight(ms) != 0.0
    requires forall m :: m in ms ==>
      m.weight >= 0.0 && 0.0 <= MethodDistance(m, Fold(q, caseSensitive), Fold(t, caseSensitive)) <= 1.0
    ensures 0.0 <= Score(q, t, caseSensitive, ms) <= 1.0
  {
    var a, b := Fold(q, caseSensitive), Fold(t, caseSensitive);
    var ts := Terms(a, b, ms);
    forall x | x in ts
      ensures x.weight >= 0.0 && 0.0 <= x.distance <= 1.0
    {
      var i :| 0 <= i < |ts| && ts[i] == x;
      assert ms[i] in ms;
    }
    SumBounds(ts);
    TermsWeight(a, b, ms);
    RatioBounds(Similarity(ts), TotalWeight(ms));
  }

  /** A case-insensitive score is the case-sensitive score of the lower-cased strings. */
  lemma ScoreFoldsCase(q: string, t: string, ms: seq<Loaded>)
    requires TotalWeight(ms) != 0.0
    ensures Score(q, t, false, ms) == Score(Text.Lower(q), Text.Lower(t), true, ms)
    ensures Score(q, t, false, ms) == Score(Text.Lower(q), Text.Lower(t), false, ms)
  {
    Text.LowerIdempotent(q);
    Text.LowerIdempotent(t);
  }

  /** A case-insensitive score does not change when either string is upper-cased. */
  lemma ScoreIgnoresCase(q: string, t: string, ms: seq<Loaded>)
    requires TotalWeight(ms) != 0.0
    ensures Score(Text.Upper(q), Text.Upper(t), false, ms) == Score(q, t, false, ms)
    ensures Score(Text.Upper(q), t, false, ms) == Score(q, t, false, ms)
  {
    Text.LowerOfCaseVariants(q);
    Text.LowerOfCaseVariants(t);
    Text.LowerIdempotent(q);
    Text.LowerIdempotent(t);
  }

  lemma DefaultTotalWeight()
    ensures TotalWeight(DefaultLoaded) == 2.5
  {
    assert DefaultLoaded[1..][1..] == [];
  }

  /** With the default methods, equal (after folding) non-empty strings score 1. */
  lemma DefaultIdenticalScoresOne(q: string, t: string, caseSensitive: bool)
    requires |q| > 0 && Fold(q, caseSensitive) == Fold(t, caseSensitive)
    ensures TotalWeight(DefaultLoaded) == 2.5
    ensures Score(q, t, caseSensitive, DefaultLoaded) == 1.0
  {
    DefaultTotalWeight();
    ScoreOfUniformDistance(q, t, caseSensitive, DefaultLoaded, 0.0);
  }

  /** With the default methods, an empty query or an empty candidate scores 0. */
  lemma DefaultEmptyScoresZero(q: string, t: string, caseSensitive: bool)
    requires |q| == 0 || |t| == 0
    ensures TotalWeight(DefaultLoaded) == 2.5
    ensures Score(q, t, caseSensitive, DefaultLoaded) == 0.0
  {
    DefaultTotalWeight();
    ScoreOfUniformDistance(q, t, caseSensitive, DefaultLoaded, 1.0);
  }

  /** With the default methods, strings with no character in common (after folding) score 0. */
  lemma DefaultDisjointScoresZero(q: string, t: string, caseSensitive: bool)
    requires forall i, j :: 0 <= i < |Fold(q, caseSensitive)| && 0 <= j < |Fold(t, caseSensitive)| ==>
      Fold(q, caseSensitive)[i] != Fold(t, caseSensitive)[j]
    ensures TotalWeight(DefaultLoaded) == 2.5
    ensures Score(q, t, caseSensitive, DefaultLoaded) == 0.0
  {
    var a, b := Fold(q, caseSensitive), Fold(t, caseSensitive);
    DefaultTotalWeight();
    JaroWinkler.NoCommonCharacterIsMaximal(a, b, 0.1);
    Jaccard.NoCommonCharacterIsMaximal(a, b, 2);
    ScoreOfUniformDistance(q, t, caseSensitive, DefaultLoaded, 1.0);
  }

  /** Non-negative weights and distances of at most 1 keep the similarity non-negative. */
  lemma {:induction false} SumNonNegative(ts: seq<Term>)
    requires forall x :: x in ts ==> x.weight >= 0.0 && x.distance <= 1.0
    ensures Similarity(ts) >= 0.0
  {
    if ts != [] {
      SumNonNegative(ts[1..]);
      TermNonNegative(ts[0].distance, ts[0].weight);
    }
  }

  lemma TermNonNegative(d: real, w: real)
    requires d <= 1.0 && w >= 0.0
    ensures (1.0 - d) * w >= 0.0
  {
  }

  /**
   * With the default methods the score is never negative. It has no upper bound of 1,
   * because the n-gram distance can be negative.
   */
  lemma DefaultScoreNonNegative(q: string, t: string, caseSensitive: bool)
    ensures TotalWeight(DefaultLoaded) == 2.5
    ensures Score(q, t, caseSensitive, DefaultLoaded) >= 0.0
  {
    var ts := Terms(Fold(q, caseSensitive), Fold(t, caseSensitive), DefaultLoaded);
    DefaultTotalWeight();
    DefaultTermsBounded(Fold(q, caseSensitive), Fold(t, caseSensitive));
    SumNonNegative(ts);
  }

  /** Both default methods have a positive weight and report a distance of at most 1. */
  lemma DefaultTermsBounded(a: string, b: string)
    ensures forall x :: x in Terms(a, b, DefaultLoaded) ==> x.weight >= 0.0 && x.distance <= 1.0
  {
    var d0 := Apply(JaroWinklerAlgorithm, a, b, Params(Some(0.1), None));
    var d1 := Apply(JaccardAlgorithm, a, b, Params(None, Some(2)));
    assert d0 <= 1.0 && d1 <= 1.0;
    DefaultTerms(a, b);
  }

  /** The terms of the default methods: Jaro-Winkler with p 0.1 at weight 1.5, n-grams with n 2 at weight 1. */
  lemma DefaultTerms(a: string, b: string)
    ensures Terms(a, b, DefaultLoaded) ==
      [Term(Apply(JaroWinklerAlgorithm, a, b, Params(Some(0.1), None)), 1.5),
       Term(Apply(JaccardAlgorithm, a, b, Params(None, Some(2))), 1.0)]
  {
  }

  /**
   * With the default methods the score is the 1.5 : 1 weighted mean of the Jaro-Winkler
   * similarity (p 0.1) and the bigram similarity.
   */
  lemma DefaultScoreIsWeightedMean(q: string, t: string, caseSensitive: bool)
    ensures var a, b := Fold(q, caseSensitive), Fold(t, caseSensitive);
      Score(q, t, caseSensitive, DefaultLoaded) ==
        (1.5 * (1.0 - JaroWinkler.Distance(a, b, 0.1)) + 1.0 * (1.0 - Jaccard.Distance(a, b, 2))) / 2.5
  {
    var a, b := Fold(q, caseSensitive), Fold(t, caseSensitive);
    var d0, d1 := JaroWinkler.Distance(a, b, 0.1), Jaccard.Distance(a, b, 2);
    DefaultTotalWeight();
    DefaultTerms(a, b);
    SimilarityOfTwo(Term(d0, 1.5), Term(d1, 1.0));
  }

  /** Two terms: the sum of their weighted similarities. */
  lemma SimilarityOfTwo(x: Term, y: Term)
    ensures Similarity([x, y]) == (1.0 - x.distance) * x.weight + (1.0 - y.distance) * y.weight
  {
    assert [x, y][1..] == [y];
    assert [y][1..] == [];
    assert Similarity([y]) == (1.0 - y.distance) * y.weight + Similarity([]);
    assert Similarity([x, y]) == (1.0 - x.distance) * x.weight + Similarity([y]);
  }
}

=== FILE: text.dfy ===
/**
 * Case folding. The source lower-cases both strings with `toLowerCase` when the
 * search is case-insensitive; the model folds the ASCII letters only.
 */
module Text {

  predicate IsUpper(c: char) {
    'A' <= c <= 'Z'
  }

  predicate IsLower(c: char) {
    'a' <= c <= 'z'
  }

  function LowerChar(c: char): char {
    if IsUpper(c) then (c as int + 32) as char else c
  }

  function UpperChar(c: char): char {
    if IsLower(c) then (c as int - 32) as char else c
  }

  /** `s.toLowerCase()`: same length, no upper-case letter left, everything else untouched. */
  function Lower(s: string): (r: string)
    ensures |r| == |s|
    ensures forall i :: 0 <= i < |r| ==> !IsUpper(r[i])
    ensures forall i :: 0 <= i < |s| && !IsUpper(s[i]) ==> r[i] == s[i]
    ensures forall i :: 0 <= i < |s| && IsUpper(s[i]) ==> r[i] as int == s[i] as int + 32
  {
    seq(|s|, i requires 0 <= i < |s| => LowerChar(s[i]))
  }

  /** `s.toUpperCase()`, used to state that case variants of a query fold to the same string. */
  function Upper(s: string): (r: string)
    ensures |r| == |s|
    ensures forall i :: 0 <= i < |r| ==> !IsLower(r[i])
    ensures forall i :: 0 <= i < |s| && !IsLower(s[i]) ==> r[i] == s[i]
  {
    seq(|s|, i requires 0 <= i < |s| => UpperChar(s[i]))
  }

  /** Folding twice is folding once. */
  lemma LowerIdempotent(s: string)
    ensures Lower(Lower(s)) == Lower(s)
  {
  }

  /** The upper-cased and the lower-cased spelling of a string fold to the same string. */
  lemma LowerOfCaseVariants(s: string)
    ensures Lower(Upper(s)) == Lower(s)
  {
  }
}
